=== FILE: README.md ===
# MMM-SFMuniBusTimes, modelled in Dafny

MMM-SFMuniBusTimes is a MagicMirror module that shows San Francisco Muni arrival times. This project models its core.

The node helper asks the NextBus `predictionsForMultiStops` feed about the configured stops. It then folds the parsed response into a schedule:

- one entry per stop tag;
- one route row per response fragment;
- at most three trains per route;
- routes and stops ordered by a weak character-code key.

The display module stores the schedule it receives and renders it as a header per stop and a row of cells per route.

The model is functional. The parsed response is a datatype (`Feed`) and the normalized schedule is another (`Schedule`). The callback is a left fold (`Normalizer.DigestAll`) over the fragments. Its state is the schedule plus `seenStops`, a map from stop tag to the entry's index. The source keeps the entry object itself; since that object is shared with the schedule, an index is equivalent.

`Array.prototype.sort` with the comparator `a - b` is stable since ECMAScript 2019. It is modelled as a stable insertion sort (`StableSort.SortByKey`), proved to be the only sequence that is sorted by key and keeps every key class in input order.

Two lines of the callback do not do what their comments say (see "## Findings"): the direction title of a fragment with predictions is always lost, and no train is ever marked delayed. The callback is therefore modelled under a `Normalizer.Reading`: `AsWritten` is the source as it is written, `AsIntended` applies both corrections. The fold, the reference, the pipeline and every lemma about them take the reading as a parameter and hold for both; lemmas that single one out say so.

A reference definition (`Normalizer.Reference`) describes the result stop by stop, without a fold, and lemmas connect the fold to it. The rendering is a pure function from an optional schedule to header strings and rows of cell strings. Every rendered time label is proved to read back as the countdown it shows.

Modules:

- `Wrappers` holds `Option`.
- `Feed` holds the parsed response.
- `Schedule` holds the normalized schedule and the weak keys.
- `StableSort` holds the sort.
- `Normalizer` holds the callback.
- `FeedUrl` holds `buildUrl`.
- `Decimal` holds the decimal text of counts.
- `Display` holds `getDom` and the notification handler.
- `Pipeline` holds one refresh, end to end.

## Model

| member | source | states |
|---|---|---|
| `Normalizer.Normalize` | node_helper.js:23-151 | Under either reading, a schedule is sent exactly when the response parsed, has a body, has no Error element and has a fragment list, and the callback iterates no list the parser left unset: the fragments, the messages of a stop's first fragment, the predictions of a direction block. The schedule sent is sorted by the stop key and has as many entries as there are distinct stop tags. |
| `Normalizer.DigestAll` | node_helper.js:40-131 | After the fragment loop, `seenStops` indexes entries of the schedule, its keys are exactly the stop tags named, and there is one schedule entry per key. |
| `Normalizer.Step` | node_helper.js:45-131 | One pass adds the fragment's stop tag to `seenStops`. It grows the schedule by one entry exactly when the tag is new and keeps every index valid. |
| `Normalizer.StepTracksSeen` | node_helper.js:59-130 | A fragment for a stop seen before updates that stop's entry in place, and the result is still the reference schedule for the longer feed. |
| `Normalizer.StepTracksNew` | node_helper.js:64-130 | A fragment for a new stop appends its entry at the end and indexes it, and the result is still the reference schedule for the longer feed. |
| `Normalizer.DigestTracksReference` | node_helper.js:45-131 | Under either reading, after every prefix of the feed, the fold's schedule and index agree with the reference: one entry per stop tag in first-seen order, each equal to the entry the reference computes for that tag. |
| `Normalizer.NormalizeIsSortedReference` | node_helper.js:133-147 | A feed with an unset list sends nothing. Any other feed sends the reference schedule stably sorted by the stop key: every stop-key class keeps first-seen order. |
| `Normalizer.OneEntryPerStopTag` | node_helper.js:59-130 | Whenever a schedule is sent, it holds exactly one entry per distinct stop tag. It is a permutation of the reference entries, and a stop is in it iff it is the entry of some stop tag. |
| `Normalizer.StopEntryContents` | node_helper.js:64-129 | A stop's entry has one route per fragment naming the stop, with no merging by route tag. The routes are a stably sorted permutation of those fragments' routes. Title and messages come from the first such fragment, the direction title from the last, resolved under the reading. |
| `Normalizer.EmittedRoutesSorted` | node_helper.js:91-123 | Whenever a schedule is sent, every stop in it lists its routes in route-key order, and every route has at most three trains. |
| `Normalizer.LastFragmentTitleWins` | node_helper.js:52-129 | The last fragment naming a stop sets its direction title, even when an earlier one had a title. Without a direction block that is `dirTitleBecauseNoPredictions`. With one, it is the block's title as intended and none as written. |
| `Normalizer.OpeningFragment` | node_helper.js:64-130 | The first fragment opens the schedule with one stop that has its title, messages, resolved direction and single route, indexed at 0. |
| `Normalizer.SecondFragmentSameStop` | node_helper.js:59-129 | A second fragment for the same stop adds its route to the one entry in route-key order and replaces the direction title. Title and messages stay. |
| `Normalizer.TwoFragmentsOneStop` | node_helper.js:45-147 | Worked example: routes 33 (a service alert, four predictions) and N (one prediction marked delayed) at one stop give one entry, which carries the alert. Route N comes first and route 33 keeps only its first three trains. As written the entry has no direction title and N's train is on time. As intended the entry is titled "Inbound" and N's train is delayed. |
| `Normalizer.CapTrains` | node_helper.js:91-106 | The prediction loop keeps the first `min(n, 3 - count)` predictions in feed order, each mapped to its train. |
| `Normalizer.TrainsOf` | node_helper.js:86-106 | A route's trains are the first `min(n, 3)` predictions of the direction block in feed order, or none without a direction block. Epoch time, seconds and car count are copied. A train is delayed exactly when the reading is the intended one and the feed's attribute says `true`. |
| `Normalizer.TrainOf` | node_helper.js:95-100 | One prediction's train copies epoch time, seconds and car count. It is delayed exactly when the reading is the intended one and the attribute is `"true"`, so never as written. |
| `Normalizer.DelayedOf` | node_helper.js:99 | The delayed flag is never set as written. As intended it is set exactly when the feed's `delayed` attribute is `"true"`, so an absent attribute means on time. |
| `Normalizer.TitleOf` | node_helper.js:50-89 | Without a direction block the title is `dirTitleBecauseNoPredictions`. With one it is the block's `title` attribute as intended, even when absent, and none as written. |
| `Normalizer.ResolveTitle` | node_helper.js:52-89 | The direction block's title, read from the parsed object's `$.title`, overrides `dirTitleBecauseNoPredictions`, even when absent. Without a direction block the no-predictions title stands. |
| `Normalizer.ResolveTitleAsWritten` | node_helper.js:86-89 | As written, the title is the `title` property of the parsed direction object. That object holds only `$` and `prediction`, so a fragment with a direction block always resolves to no direction title. |
| `Normalizer.DirectionTitleLostAsWritten` | node_helper.js:88-89 | A fragment whose direction block is titled "Inbound" resolves to no title as written, and to "Inbound" as intended. |
| `Normalizer.DelayedAsWritten` | node_helper.js:99 | As written, the delayed flag is never set. |
| `Normalizer.DelayedFlagLostAsWritten` | node_helper.js:95-100 | A prediction with `delayed="true"` is reported on time as written and delayed as intended. |
| `StableSort.SortByKey` | node_helper.js:110-123 | Insertion sort on the comparator's key. The result is a permutation of the input of the same length; `StableSort.SortIsStableSort` and `StableSort.SortIsUnique` show it is the stable sort. |
| `StableSort.SortIsStableSort` | node_helper.js:110-123 | The sort returns a sequence sorted by key, a permutation of its input, in which every key class keeps its input order. |
| `StableSort.SortIsUnique` | node_helper.js:134-147 | Any sequence that is sorted by key and keeps every key class of the input in order is the sort's result, so every stable sort agrees with the model. |
| `StableSort.SortAfterAppend` | node_helper.js:78-123 | Re-sorting a sorted route list after each push gives the same list as sorting all pushed routes at once. |
| `StableSort.SortOfSorted` | node_helper.js:110-123 | Sorting a list that is already sorted by key leaves it unchanged. |
| `StableSort.SortPair` | node_helper.js:110-123 | Two routes swap exactly when the second has the strictly smaller key, so equal keys keep their order. |
| `Schedule.LoopSum` | node_helper.js:114-119 | The comparator's loop over the first `min(length, n)` characters adds up exactly the weak key `PrefixCodeSum`. |
| `Schedule.Compare` | node_helper.js:110-122 | The comparator returns `aSum - bSum`: negative exactly when `a`'s key is smaller, zero exactly when the keys tie. |
| `Schedule.RouteKey` | node_helper.js:111-122 | A route's key is the sum of the codes of the first three characters of its tag, or of the whole tag when it is shorter. |
| `Schedule.StopKey` | node_helper.js:135-146 | A stop's key is the sum of the codes of the first four characters of its title, or of the whole title when it is shorter. |
| `Schedule.CodeSumPermutation` | node_helper.js:114-120 | The character-code sum depends only on the multiset of characters, not their order. |
| `Schedule.RouteKeyTiesOnRearrangement` | node_helper.js:114-122 | Route tags whose first `min(length, 3)` characters rearrange each other get equal keys, so they keep feed order. |
| `Schedule.PrefixCodeSumReadsPrefix` | node_helper.js:138-144 | The key reads the first `n` characters and nothing after them. |
| `Schedule.RouteKeyExample` | node_helper.js:109-122 | The key is not alphabetical: "N" (78) sorts before "33" (102), and "KT" ties with "TK". |
| `FeedUrl.BuildUrl` | node_helper.js:168-185 | The query is `command=predictionsForMultiStops`, then `a=sf-muni`, then one `stops` parameter per configured (stop, route) pair. The pairs come in nested configuration order, and the `j`-th route of the `i`-th stop has value `route|stop` at its position. |
| `FeedUrl.PairPositionsDistinct` | node_helper.js:171-175 | Different (stop, route) pairs get different positions below the pair count, so every `stops` parameter belongs to exactly one pair. |
| `Display.GetDom` | MMM-SFMuniBusTimes.js:43-123 | With no schedule the view is only the "Loading MUNI Times..." placeholder. Otherwise there is one panel per stop, in schedule order. |
| `Display.Panel` | MMM-SFMuniBusTimes.js:54-120 | A stop's panel is its header and one row per route, in the schedule's route order. |
| `Display.Header` | MMM-SFMuniBusTimes.js:61-66 | The header starts with the stop title. It continues exactly when a direction title is defined, and then the rest is `": "` followed by that title. |
| `Display.RouteRow` | MMM-SFMuniBusTimes.js:76-119 | The first cell is the route tag. Then come one cell per train (1 + the number of trains cells in all), or exactly one "No predictions" cell when there are no trains. |
| `Display.RouteRowReadsBack` | MMM-SFMuniBusTimes.js:91-113 | The first train's cell reads back as its countdown to the second, and every later train's cell as its whole minutes, all with minutes written without a leading zero. |
| `Display.TrainCells` | MMM-SFMuniBusTimes.js:94-113 | One cell per train. Only the first cell of a row carries seconds, and each cell reads back as its train's countdown, with minutes written without a leading zero. |
| `Display.FirstTrainLabel` | MMM-SFMuniBusTimes.js:98-104 | The first train's label `Xm YYs` reads back as exactly the seconds until arrival, and its minutes carry no leading zero. |
| `Display.FirstTrainLabelShape` | MMM-SFMuniBusTimes.js:102-104 | The first train's label is the decimal minutes, `"m "`, exactly two digits denoting `seconds mod 60`, and `"s"`. |
| `Display.PadSeconds` | MMM-SFMuniBusTimes.js:103 | A text of one or two digits is padded to exactly two digits denoting the same number. |
| `Display.SecondsFieldTwoDigits` | MMM-SFMuniBusTimes.js:102-103 | For every non-negative count, the padded seconds text is exactly two digits denoting `seconds mod 60`. |
| `Display.FirstTrainLabelInjective` | MMM-SFMuniBusTimes.js:98-104 | Two first-train labels are equal exactly when the countdowns are. |
| `Display.FirstTrainLabelCanonical` | MMM-SFMuniBusTimes.js:98-104 | Any cell that reads back as the countdown, has no leading zero in its minutes and a seconds field below 60 is exactly the first-train label, so the label is the one canonical `${mins}m ${secText}s` text. |
| `Display.LaterTrainLabel` | MMM-SFMuniBusTimes.js:98-110 | A later train's label `Xm` reads back as `seconds div 60`, and its minutes carry no leading zero, so it is the canonical `${mins}m` text. |
| `Display.LaterTrainLabelAgreement` | MMM-SFMuniBusTimes.js:108-110 | Two later-train labels are equal exactly when the whole minutes are. |
| `Display.LaterTrainLabelCanonical` | MMM-SFMuniBusTimes.js:98-109 | Any cell that reads back as the whole minutes and has no leading zero is exactly the later-train label, so the label is the one canonical `${mins}m` text. |
| `Display.Receive` | MMM-SFMuniBusTimes.js:126-131 | A `MUNI_TIMINGS` notification replaces the stored schedule, whatever was stored before. Any other notification leaves it unchanged. |
| `Decimal.NatToString` | MMM-SFMuniBusTimes.js:102 | The decimal text of a count is non-empty digits with no leading zero. It is one character exactly below 10 and at most two below 100. |
| `Decimal.ValueOfNatToString` | MMM-SFMuniBusTimes.js:102 | Reading the decimal text back gives the count that was written. |
| `Decimal.CanonicalDigits` | MMM-SFMuniBusTimes.js:98-104 | A digit string with no leading zero is the decimal text of its own value, as the template literal writes `mins`. |
| `Pipeline.Refresh` | MMM-SFMuniBusTimes.js:126-131 | A response the helper drops or throws on keeps the stored schedule. Any other response replaces it, under either reading, with a schedule sorted by the stop key and holding one entry per distinct stop tag. |
| `Pipeline.DroppedResponseKeepsView` | node_helper.js:23-93 | A response the helper drops (lines 23-38) or throws on (lines 45, 73, 93) leaves the screen as it was. Before any schedule arrived, that is the loading text. |
| `Pipeline.AcceptedResponseShowsEveryStop` | MMM-SFMuniBusTimes.js:126-131 | After a well-formed response the screen shows one panel per distinct stop tag, the reference entries in stop-key order, whatever it showed before. A feed with an unset list leaves the screen as it was. |
| `Pipeline.AsWrittenHeaderIsBareTitle` | MMM-SFMuniBusTimes.js:61-64 | As written, whenever the feed is shown, a stop whose last fragment has a direction block is on screen under its bare stop title, with no direction. |
| `Pipeline.MissingMessagesKeepView` | node_helper.js:64-76 | A stop whose first fragment has no `<message>` element makes the callback iterate an unset list, so the screen keeps its previous content. |

## Left out

- The XML parser is not modelled. Its output is the `Feed.Document` datatype, and only the first direction block of a fragment is represented, since the source reads only that one.
- Parse failures, a missing body, an Error element and a missing fragment list all end in "nothing sent". The console logging of those cases is left out.
- The parser (xml2js with default options) sets no property for an element with no children of a name. An empty list in `Feed` therefore stands for an absent one: an empty fragment list, no messages on a stop's first fragment, or no predictions in a direction block. The callback throws on each, which the model treats as nothing sent (`Normalizer.ReadsUnsetList`).
- What the unhandled rejection of the throwing callback does to the helper process is left out. In the model that response sends nothing and the next refresh proceeds as usual.
- Stop tags that name properties every JavaScript object inherits (for example `constructor`) are treated as ordinary new tags. The source would take them for already seen and fail.
- The HTTP request, the `URL` base and percent-encoding of the query are left out. `FeedUrl.BuildUrl` yields the ordered (name, value) pairs.
- `FeedUrl.BuildUrl` takes the configured stops as a sequence in the order the configuration object enumerates them. JavaScript's key ordering, with integer-like keys first and ascending, is not modelled.
- Socket notifications, `updateDom`, the refresh timer and the module lifecycle are left out. "Sent" is `Some(schedule)`, and a refresh is `Pipeline.Refresh`.
- The helper's own handler for the fetch request only starts the I/O above, so it is not modelled.
- DOM elements, class names, styles and the HTML interpretation of `innerHTML` are left out. Rendered output is plain strings.
- `seconds` is a natural number. The string-to-number coercion in `Math.floor(train.seconds / 60)` and in `% 60` is not modelled.
- Very large counts that JavaScript would write in exponent notation are not modelled.
- Character codes are Dafny characters (Unicode scalar values). The source sums UTF-16 code units, which differ only for characters outside the Basic Multilingual Plane.

## Findings

| source | as written | input that shows it | evidently intended | confidence | as-written member | corrected member |
|---|---|---|---|---|---|---|
| node_helper.js:89 | The direction title is read from `directionFirst.title`. The parser, called with default options, puts element attributes under `$`, so that property is never set. A stop with predictions therefore loses its direction title, and that overwrites any earlier title for the stop. | A fragment whose direction block has `title="Inbound"` and one prediction. | The direction block's `title` attribute overrides `dirTitleBecauseNoPredictions`, as the comment on line 87 says. | high, not executed | `Normalizer.ResolveTitleAsWritten` (counterexample `Normalizer.DirectionTitleLostAsWritten`) | `Normalizer.ResolveTitle`, used through `Normalizer.TitleOf` under `AsIntended`, with `Normalizer.LastFragmentTitleWins` |
| node_helper.js:99 | `trainPred.$.delayed === true` compares attribute text, which the parser keeps as a string, with the boolean `true`, so no train is ever delayed. | A prediction with `delayed="true"`. | A train is delayed when the feed says `delayed="true"`, and on time when the attribute is absent. | high, not executed | `Normalizer.DelayedAsWritten` (counterexample `Normalizer.DelayedFlagLostAsWritten`) | `Normalizer.DelayedOf` under `AsIntended`, with `Normalizer.TrainsOf` |

=== FILE: decimal.dfy ===
/**
  Decimal text of natural numbers, as JavaScript's `"" + n` writes it for
  the counts shown on screen, and the digit reading that undoes it.
 */
module Decimal {

  predicate IsDigit(c: char)
  {
    '0' <= c <= '9'
  }

  predicate AllDigits(s: string)
  {
    forall i :: 0 <= i < |s| ==> IsDigit(s[i])
  }

  function DigitChar(d: nat): (c: char)
    requires d < 10
    ensures IsDigit(c)
  {
    (d + '0' as int) as char
  }

  function DigitValue(c: char): (d: nat)
    requires IsDigit(c)
    ensures d < 10
  {
    c as int - '0' as int
  }

  /** The decimal digits of `n`, most significant first, with no leading zero. */
  function NatToString(n: nat): (s: string)
    ensures |s| > 0 && AllDigits(s)
    ensures |s| == 1 <==> n < 10
    ensures n < 100 ==> |s| <= 2
    ensures n > 0 ==> s[0] != '0'
  {
    if n < 10 then [DigitChar(n)] else NatToString(n / 10) + [DigitChar(n % 10)]
  }

  /** The number a string of decimal digits denotes; leading zeros add nothing. */
  function Value(s: string): (v: nat)
    requires AllDigits(s)
  {
    if |s| == 0 then 0 else 10 * Value(s[..|s|-1]) + DigitValue(s[|s|-1])
  }

  /** Reading the digits back gives the number that was written. */
  lemma {:induction false} ValueOfNatToString(n: nat)
    ensures Value(NatToString(n)) == n
  {
    if n >= 10 {
      var s := NatToString(n);
      ValueOfNatToString(n / 10);
      assert s[..|s|-1] == NatToString(n / 10);
    }
  }

  /** A leading zero does not change the value. */
  lemma {:induction false} ValueLeadingZero(s: string)
    requires AllDigits(s)
    ensures AllDigits("0" + s) && Value("0" + s) == Value(s)
    decreases |s|
  {
    if |s| > 0 {
      var t := "0" + s;
      assert t[..|t|-1] == "0" + s[..|s|-1];
      ValueLeadingZero(s[..|s|-1]);
    } else {
      assert ("0" + s)[..0] == [];
    }
  }

  /** A digit string that starts with a non-zero digit denotes a positive number. */
  lemma {:induction false} PositiveValue(s: string)
    requires |s| > 0 && AllDigits(s) && s[0] != '0'
    ensures Value(s) > 0
    decreases |s|
  {
    if |s| > 1 {
      assert s[..|s|-1][0] == s[0];
      PositiveValue(s[..|s|-1]);
    }
  }

  /** A digit string with no leading zero is the decimal text of its own value, so that text is the only canonical one. */
  lemma {:induction false} CanonicalDigits(s: string)
    requires |s| > 0 && AllDigits(s) && (s[0] == '0' ==> |s| == 1)
    ensures NatToString(Value(s)) == s
    decreases |s|
  {
    var p, c := s[..|s|-1], s[|s|-1];
    assert s == p + [c];
    if |s| == 1 {
      assert p == [];
    } else {
      assert p[0] == s[0];
      CanonicalDigits(p);
      PositiveValue(p);
      var n := Value(s);
      assert n / 10 == Value(p) && n % 10 == DigitValue(c);
    }
  }

  /** Two two-digit strings with the same value are the same string. */
  lemma {:induction false} TwoDigitsUnique(a: string, b: string)
    requires |a| == 2 && |b| == 2 && AllDigits(a) && AllDigits(b)
    requires Value(a) == Value(b)
    ensures a == b
  {
    var x0, x1, y0, y1 := DigitValue(a[0]), DigitValue(a[1]), DigitValue(b[0]), DigitValue(b[1]);
    TwoDigitValue(a);
    TwoDigitValue(b);
    assert x0 == y0 && x1 == y1 by {
      assert 10 * x0 + x1 == 10 * y0 + y1;
    }
    assert a[0] == b[0] && a[1] == b[1];
  }

  lemma {:induction false} TwoDigitValue(a: string)
    requires |a| == 2 && AllDigits(a)
    ensures Value(a) == 10 * DigitValue(a[0]) + DigitValue(a[1])
  {
    assert a[..|a|-1] == [a[0]] && [a[0]][..0] == [];
    assert Value([a[0]]) == DigitValue(a[0]);
  }
}

=== FILE: display.dfy ===
/**
  The display module's view of a schedule, as text: the placeholder shown
  before any schedule arrives, one panel per stop with a header, and one row
  of cells per route. Elements, class names and styles are not modelled.
 */
module Display {
  import opened Wrappers
  import opened Schedule
  import opened Decimal

  const LoadingText := "Loading MUNI Times..."
  const NoPredictionsText := "No predictions"
  const TimingsNotification := "MUNI_TIMINGS"

  /** One stop: its header line and, per route, the row's cell texts. */
  datatype StopPanel = StopPanel(header: string, rows: seq<seq<string>>)

  /** What the module shows. */
  datatype View = Placeholder(text: string) | Panels(stops: seq<StopPanel>)

  // ----- time labels ------------------------------------------------------

  /**
    A one-character seconds count gets a leading "0": the text of any count
    below 100 becomes exactly two digits denoting the same number.
   */
  function PadSeconds(secs: string): (p: string)
    ensures AllDigits(secs) && 0 < |secs| <= 2 ==> |p| == 2 && AllDigits(p) && Value(p) == Value(secs)
  {
    if |secs| == 1 then
      assert AllDigits(secs) ==> AllDigits("0" + secs) && Value("0" + secs) == Value(secs) by {
        if AllDigits(secs) {
          ValueLeadingZero(secs);
        }
      }
      "0" + secs
    else secs
  }

  /** The first train's cell: whole minutes, "m ", the remaining seconds in two digits, "s". It reads back as the countdown to the second. */
  function FirstTrainLabel(seconds: nat): (l: string)
    ensures ParseFirstTrainLabel(l) == Some(seconds)
    ensures l[0] == '0' ==> |l| == 6
    ensures |l| >= 6 && AllDigits(l[|l|-3..|l|-1]) && Value(l[|l|-3..|l|-1]) < 60
  {
    var m, ss := NatToString(seconds / 60), PadSeconds(NatToString(seconds % 60));
    SecondsFieldTwoDigits(seconds);
    ValueOfNatToString(seconds / 60);
    ParseFirstOfShape(m, ss);
    assert (m + "m " + ss + "s")[0] == m[0];
    assert (m + "m " + ss + "s")[|m| + 2..|m| + 4] == ss;
    m + "m " + ss + "s"
  }

  /** A later train's cell: whole minutes and "m". It reads back as the whole minutes of the countdown. */
  function LaterTrainLabel(seconds: nat): (l: string)
    ensures ParseLaterTrainLabel(l) == Some(seconds / 60)
    ensures l[0] == '0' ==> |l| == 2
  {
    var m := NatToString(seconds / 60);
    assert (m + "m")[..|m + "m"|-1] == m;
    assert (m + "m")[0] == m[0];
    ValueOfNatToString(seconds / 60);
    m + "m"
  }

  /** Reads a first-train label back into seconds. */
  function ParseFirstTrainLabel(l: string): (seconds: Option<nat>)
  {
    if |l| >= 6 && l[|l|-5] == 'm' && l[|l|-4] == ' ' && l[|l|-1] == 's'
       && AllDigits(l[..|l|-5]) && AllDigits(l[|l|-3..|l|-1])
    then Some(60 * Value(l[..|l|-5]) + Value(l[|l|-3..|l|-1]))
    else None
  }

  /** Reads a later-train label back into whole minutes. */
  function ParseLaterTrainLabel(l: string): (minutes: Option<nat>)
  {
    if |l| >= 2 && l[|l|-1] == 'm' && AllDigits(l[..|l|-1])
    then Some(Value(l[..|l|-1]))
    else None
  }

  /** For every non-negative count, the padded seconds field is two digits denoting `seconds % 60`. */
  lemma {:induction false} SecondsFieldTwoDigits(seconds: nat)
    ensures var ss := PadSeconds(NatToString(seconds % 60));
      |ss| == 2 && AllDigits(ss) && Value(ss) == seconds % 60
  {
    ValueOfNatToString(seconds % 60);
  }

  /**
    The first-train label is the minute count, "m ", exactly two digits
    denoting the leftover seconds, and "s".
   */
  lemma {:induction false} FirstTrainLabelShape(seconds: nat)
    ensures var l, m := FirstTrainLabel(seconds), NatToString(seconds / 60);
      && |l| == |m| + 5
      && l[..|m|] == m
      && l[|m|..|m|+2] == "m "
      && AllDigits(l[|m|+2..|m|+4])
      && Value(l[|m|+2..|m|+4]) == seconds % 60
      && l[|m|+4] == 's'
  {
    SecondsFieldTwoDigits(seconds);
    var l, m := FirstTrainLabel(seconds), NatToString(seconds / 60);
    var ss := PadSeconds(NatToString(seconds % 60));
    assert l == m + "m " + ss + "s";
    assert l[..|m|] == m;
    assert l[|m|..|m|+2] == "m ";
    assert l[|m|+2..|m|+4] == ss;
    assert l[|m|+4] == 's';
  }

  lemma {:induction false} ParseFirstOfShape(m: string, ss: string)
    requires |m| > 0 && AllDigits(m) && |ss| == 2 && AllDigits(ss)
    ensures ParseFirstTrainLabel(m + "m " + ss + "s") == Some(60 * Value(m) + Value(ss))
  {
    var l := m + "m " + ss + "s";
    assert l[..|l|-5] == m;
    assert l[|l|-3..|l|-1] == ss;
  }

  /** Two first-train labels agree exactly when the countdowns do. */
  lemma FirstTrainLabelInjective(a: nat, b: nat)
    ensures FirstTrainLabel(a) == FirstTrainLabel(b) <==> a == b
  {
  }

  /** Two later-train labels agree exactly when the whole minutes do. */
  lemma LaterTrainLabelAgreement(a: nat, b: nat)
    ensures LaterTrainLabel(a) == LaterTrainLabel(b) <==> a / 60 == b / 60
  {
  }

  // ----- rows and panels --------------------------------------------------

  /**
    `cell` reads back as the countdown `seconds`, to the second, its minutes
    carry no leading zero and its seconds field is below 60.
   */
  predicate ShowsCountdown(cell: string, seconds: nat)
  {
    && ParseFirstTrainLabel(cell) == Some(seconds)
    && (cell[0] == '0' ==> |cell| == 6)
    && Value(cell[|cell|-3..|cell|-1]) < 60
  }

  /** `cell` reads back as the whole minutes of the countdown `seconds`, with no leading zero. */
  predicate ShowsMinutes(cell: string, seconds: nat)
  {
    ParseLaterTrainLabel(cell) == Some(seconds / 60) && (cell[0] == '0' ==> |cell| == 2)
  }

  /** The first-train label is the only cell that shows the countdown `seconds`. */
  lemma {:induction false} FirstTrainLabelCanonical(cell: string, seconds: nat)
    requires ShowsCountdown(cell, seconds)
    ensures cell == FirstTrainLabel(seconds)
  {
    var m, ss := cell[..|cell|-5], cell[|cell|-3..|cell|-1];
    MinutesAndSeconds(Value(m), Value(ss), seconds);
    assert m[0] == cell[0];
    CanonicalDigits(m);
    SecondsFieldTwoDigits(seconds);
    TwoDigitsUnique(ss, PadSeconds(NatToString(seconds % 60)));
    FirstLabelSplit(cell);
  }

  lemma MinutesAndSeconds(mins: nat, secs: nat, seconds: nat)
    requires secs < 60 && 60 * mins + secs == seconds
    ensures mins == seconds / 60 && secs == seconds % 60
  {
  }

  lemma FirstLabelSplit(cell: string)
    requires |cell| >= 6 && cell[|cell|-5] == 'm' && cell[|cell|-4] == ' ' && cell[|cell|-1] == 's'
    ensures cell == cell[..|cell|-5] + "m " + cell[|cell|-3..|cell|-1] + "s"
  {
  }

  /** The later-train label is the only cell that shows the whole minutes of `seconds`. */
  lemma {:induction false} LaterTrainLabelCanonical(cell: string, seconds: nat)
    requires ShowsMinutes(cell, seconds)
    ensures cell == LaterTrainLabel(seconds)
  {
    var m := cell[..|cell|-1];
    assert m[0] == cell[0];
    CanonicalDigits(m);
    assert cell == m + "m";
  }

  /**
    The train loop: the cell of the first train carries minutes and seconds,
    every later cell whole minutes only.
   */
  function TrainCells(trains: seq<Train>, first: bool): (cells: seq<string>)
    ensures |cells| == |trains|
    ensures first && |trains| > 0 ==> ShowsCountdown(cells[0], trains[0].seconds)
    ensures forall i :: (if first then 1 else 0) <= i < |trains| ==> ShowsMinutes(cells[i], trains[i].seconds)
  {
    if |trains| == 0 then []
    else
      var cell := if first then FirstTrainLabel(trains[0].seconds) else LaterTrainLabel(trains[0].seconds);
      assert first ==> ShowsCountdown(cell, trains[0].seconds);
      assert !first ==> ShowsMinutes(cell, trains[0].seconds);
      var rest := TrainCells(trains[1..], false);
      ConsShowsMinutes(trains, cell, rest);
      [cell] + rest
  }

  lemma {:induction false} ConsShowsMinutes(trains: seq<Train>, cell: string, rest: seq<string>)
    requires |trains| > 0 && |rest| == |trains| - 1
    requires forall i :: 0 <= i < |rest| ==> ShowsMinutes(rest[i], trains[1..][i].seconds)
    ensures forall i :: 1 <= i < |trains| ==> ShowsMinutes(([cell] + rest)[i], trains[i].seconds)
  {
    forall i | 1 <= i < |trains| ensures ShowsMinutes(([cell] + rest)[i], trains[i].seconds) {
      assert ([cell] + rest)[i] == rest[i - 1] && trains[i] == trains[1..][i - 1];
    }
  }

  /**
    A route's row: the route tag, then one cell per train, or a single
    "No predictions" cell when there are none.
   */
  function RouteRow(route: Route): (row: seq<string>)
    ensures |row| == 1 + (if |route.trains| == 0 then 1 else |route.trains|)
    ensures row[0] == route.routeTag
    ensures |route.trains| == 0 ==> row[1] == NoPredictionsText
    ensures |route.trains| > 0 ==> row[1..] == TrainCells(route.trains, true)
  {
    if |route.trains| == 0 then [route.routeTag, NoPredictionsText]
    else [route.routeTag] + TrainCells(route.trains, true)
  }

  /**
    Every train cell of a route's row reads back as that train's countdown:
    to the second for the first train, in whole minutes for the others.
   */
  lemma {:induction false} RouteRowReadsBack(route: Route)
    ensures |route.trains| > 0 ==> ShowsCountdown(RouteRow(route)[1], route.trains[0].seconds)
    ensures forall i :: 1 <= i < |route.trains| ==> ShowsMinutes(RouteRow(route)[1 + i], route.trains[i].seconds)
  {
    var row := RouteRow(route);
    if |route.trains| > 0 {
      var cells := TrainCells(route.trains, true);
      assert row[1..] == cells;
      assert row[1] == cells[0];
      forall i | 1 <= i < |route.trains| ensures ShowsMinutes(row[1 + i], route.trains[i].seconds) {
        assert row[1 + i] == cells[i];
      }
    }
  }

  /** The stop header: the title, followed by ": " and the direction exactly when one is defined. */
  function Header(stop: Stop): (h: string)
    ensures |h| >= |stop.stopTitle| && h[..|stop.stopTitle|] == stop.stopTitle
    ensures |h| > |stop.stopTitle| <==> stop.directionTitle.Some?
    ensures stop.directionTitle.Some? ==> h[|stop.stopTitle|..] == ": " + stop.directionTitle.value
  {
    var headerText := stop.stopTitle;
    match stop.directionTitle
    case None => headerText
    case Some(direction) => headerText + ": " + direction
  }

  /** One panel per stop: its header and one row per route, in the schedule's route order. */
  function Panel(stop: Stop): (p: StopPanel)
    ensures p.header == Header(stop)
    ensures |p.rows| == |stop.routes|
    ensures forall i :: 0 <= i < |stop.routes| ==> p.rows[i] == RouteRow(stop.routes[i])
  {
    StopPanel(Header(stop), seq(|stop.routes|, i requires 0 <= i < |stop.routes| => RouteRow(stop.routes[i])))
  }

  /** The view: the placeholder until a schedule is stored, then one panel per stop in schedule order. */
  function GetDom(schedule: Option<Schedule>): (v: View)
    ensures schedule.None? <==> v.Placeholder?
    ensures schedule.None? ==> v.text == LoadingText
    ensures schedule.Some? ==> |v.stops| == |schedule.value|
    ensures schedule.Some? ==> forall i :: 0 <= i < |v.stops| ==> v.stops[i] == Panel(schedule.value[i])
  {
    match schedule
    case None => Placeholder(LoadingText)
    case Some(stops) => Panels(seq(|stops|, i requires 0 <= i < |stops| => Panel(stops[i])))
  }

  /**
    The module's notification handler: a timings notification replaces the
    stored schedule wholesale, whatever was stored before; any other
    notification leaves it as it was.
   */
  function Receive(stored: Option<Schedule>, notification: string, payload: Schedule): (r: Option<Schedule>)
    ensures notification == TimingsNotification ==> r == Some(payload)
    ensures notification != TimingsNotification ==> r == stored
  {
    if notification == TimingsNotification then Some(payload) else stored
  }
}

=== FILE: feed.dfy ===
/**
  The predictions feed as the XML parser hands it to the normalizer.

  The parser (xml2js with its default options) turns every element into an
  object whose attributes sit under `$`, as text, and sets no property for
  an element without children of a name; an empty list here stands for such
  an absent one. Only the parts the normalizer reads are kept here; optional
  attributes are `Option`s.
 */
module Feed {
  import opened Wrappers

  /** The attributes of one `<message>` element (a service alert), passed through untouched. */
  datatype Message = Message(attributes: seq<(string, string)>)

  /** One `<prediction>`: the attributes the normalizer copies. `seconds` is the arrival countdown. */
  datatype Prediction = Prediction(
    epochTime: string,
    seconds: nat,
    vehiclesInConsist: Option<string>,
    delayed: Option<string>)

  /** The first `<direction>` block of a fragment: its `title` attribute and its predictions in feed order. */
  datatype Direction = Direction(title: Option<string>, predictions: seq<Prediction>)

  /** One `<predictions>` fragment: a single stop and route. */
  datatype Fragment = Fragment(
    stopTag: string,
    stopTitle: string,
    routeTag: string,
    dirTitleBecauseNoPredictions: Option<string>,
    messages: seq<Message>,
    direction: Option<Direction>)

  /** The `<body>` element: an optional `<Error>` text and the list of fragments, which may be absent. */
  datatype Body = Body(error: Option<string>, predictions: Option<seq<Fragment>>)

  /** The parse result: nothing usable (parse failure or an empty result), or a document whose body may be missing. */
  datatype Document = Unparsed | Parsed(body: Option<Body>)
}

=== FILE: feed_url.dfy ===
/**
  The query of the feed request, built from the configured stops: the fixed
  command and agency parameters, then one `stops` parameter `route|stop` for
  every configured (stop, route) pair. Percent-encoding is not modelled; the
  query is the ordered list of (name, value) pairs.
 */
module FeedUrl {

  /** One configured stop and the routes to watch there, in configuration order. */
  datatype StopRoutes = StopRoutes(stop: string, routes: seq<string>)

  /** The configured stops in the order the configuration object enumerates them. */
  type Config = seq<StopRoutes>

  type Param = (string, string)

  /** The number of configured (stop, route) pairs. */
  function PairCount(config: Config): (n: nat)
  {
    if |config| == 0 then 0 else PairCount(config[..|config|-1]) + |config[|config|-1].routes|
  }

  /** The position, among all `stops` values, of the first route of `config[i]`. */
  function Offset(config: Config, i: nat): (k: nat)
    requires i <= |config|
  {
    PairCount(config[..i])
  }

  /** The value of the `stops` parameter for one pair. */
  function StopsValue(route: string, stop: string): (v: string)
  {
    route + "|" + stop
  }

  lemma {:induction false} OffsetStep(config: Config, i: nat)
    requires i < |config|
    ensures Offset(config, i + 1) == Offset(config, i) + |config[i].routes|
  {
    assert config[..i+1][..i] == config[..i];
  }

  lemma {:induction false} OffsetMonotone(config: Config, i: nat, j: nat)
    requires i <= j <= |config|
    ensures Offset(config, i) <= Offset(config, j)
    decreases j - i
  {
    if i < j {
      OffsetStep(config, i);
      OffsetMonotone(config, i + 1, j);
    }
  }

  lemma {:induction false} OffsetsBelow(config: Config, n: nat)
    requires n <= |config|
    ensures forall i :: 0 <= i < n ==> Offset(config, i) + |config[i].routes| <= Offset(config, n)
  {
    forall i | 0 <= i < n ensures Offset(config, i) + |config[i].routes| <= Offset(config, n) {
      OffsetStep(config, i);
      OffsetMonotone(config, i + 1, n);
    }
  }

  /**
    Different pairs get different positions, so with `PairCount(config)`
    positions in all, every `stops` parameter belongs to exactly one pair.
   */
  lemma {:induction false} PairPositionsDistinct(config: Config, i: nat, j: nat, i': nat, j': nat)
    requires i < |config| && j < |config[i].routes|
    requires i' < |config| && j' < |config[i'].routes|
    requires (i, j) != (i', j')
    ensures Offset(config, i) + j != Offset(config, i') + j'
    ensures Offset(config, i) + j < PairCount(config)
  {
    assert config[..|config|] == config;
    OffsetsBelow(config, |config|);
    if i < i' {
      OffsetsBelow(config, i');
    } else if i' < i {
      OffsetsBelow(config, i);
    }
  }

  /**
    The `stops` parameter of the `j`-th route of the `i`-th configured stop
    sits at position `2 + Offset(config, i) + j` of the query.
   */
  predicate PairListed(config: Config, query: seq<Param>, i: nat, j: nat)
    requires i < |config| && j < |config[i].routes|
  {
    && 2 + Offset(config, i) + j < |query|
    && query[2 + Offset(config, i) + j] == ("stops", StopsValue(config[i].routes[j], config[i].stop))
  }

  /**
    The query: `command=predictionsForMultiStops`, `a=sf-muni`, then the
    `stops` values stop by stop and, within a stop, route by route.
   */
  method BuildUrl(config: Config) returns (query: seq<Param>)
    ensures |query| == 2 + PairCount(config)
    ensures query[0] == ("command", "predictionsForMultiStops")
    ensures query[1] == ("a", "sf-muni")
    ensures forall k :: 2 <= k < |query| ==> query[k].0 == "stops"
    ensures forall i, j :: 0 <= i < |config| && 0 <= j < |config[i].routes| ==> PairListed(config, query, i, j)
  {
    var values: seq<string> := [];
    var n := 0;
    while n < |config|
      invariant 0 <= n <= |config|
      invariant |values| == Offset(config, n)
      invariant forall i, j :: 0 <= i < n && 0 <= j < |config[i].routes| ==>
        Offset(config, i) + j < |values| &&
        values[Offset(config, i) + j] == StopsValue(config[i].routes[j], config[i].stop)
    {
      OffsetsBelow(config, n);
      var m := 0;
      while m < |config[n].routes|
        invariant 0 <= m <= |config[n].routes|
        invariant |values| == Offset(config, n) + m
        invariant forall i, j :: 0 <= i < n && 0 <= j < |config[i].routes| ==>
          Offset(config, i) + j < |values| &&
          values[Offset(config, i) + j] == StopsValue(config[i].routes[j], config[i].stop)
        invariant forall j :: 0 <= j < m ==>
          values[Offset(config, n) + j] == StopsValue(config[n].routes[j], config[n].stop)
      {
        values := values + [StopsValue(config[n].routes[m], config[n].stop)];
        m := m + 1;
      }
      OffsetStep(config, n);
      n := n + 1;
    }
    assert config[..|config|] == config;
    query := [("command", "predictionsForMultiStops"), ("a", "sf-muni")]
      + seq(|values|, k requires 0 <= k < |values| => ("stops", values[k]));
    forall i, j | 0 <= i < |config| && 0 <= j < |config[i].routes|
      ensures PairListed(config, query, i, j)
    {
      var route := config[i].routes[j];
      assert query[2 + (Offset(config, i) + j)] == ("stops", values[Offset(config, i) + j]);
    }
  }
}

=== FILE: normalizer.dfy ===
/**
  The helper's response callback: it checks the parsed feed, folds the
  fragments into one entry per stop tag, caps every route at three trains,
  re-sorts a stop's routes after each fragment and finally sorts the stops.

  The fold keeps the callback's two pieces of state: the schedule, in the
  order stops were first seen, and `seenStops`, the index of each stop tag's
  entry in that schedule. A reference definition (`Reference`) describes the
  same result stop by stop, without a fold, and `DigestTracksReference`
  connects the two.
 */
module Normalizer {
  import opened Wrappers
  import opened Feed
  import opened Schedule
  import opened StableSort

  // ----- trains -----------------------------------------------------------

  /**
    A JavaScript value as the callback sees it: an object maps its property
    names to values, and of an array only its length matters here.
   */
  datatype JsValue =
    | Undefined
    | JsString(text: string)
    | JsBoolean(flag: bool)
    | JsObject(properties: map<string, JsValue>)
    | JsArray(length: nat)

  /** The property read `o.name`: undefined unless `o` is an object that has the property. */
  function Property(o: JsValue, name: string): JsValue
  {
    if o.JsObject? && name in o.properties then o.properties[name] else Undefined
  }

  /** A value used where text is expected: a string's text, otherwise nothing. */
  function TextOf(v: JsValue): Option<string>
  {
    if v.JsString? then Some(v.text) else None
  }

  /** What the parser stores for an attribute: its text, or nothing when the attribute is absent. */
  function AttributeValue(a: Option<string>): JsValue
  {
    match a
    case None => Undefined
    case Some(t) => JsString(t)
  }

  /**
    The flag as written in the source: a strict comparison of the parsed
    attribute with the boolean `true`. The parser stores attribute text, so
    the comparison never holds.
   */
  function DelayedAsWritten(p: Prediction): (d: bool)
    ensures !d
  {
    AttributeValue(p.delayed) == JsBoolean(true)
  }

  /** The flag as intended: delayed when the feed says `delayed="true"`; an absent attribute means on time. */
  function IsDelayed(p: Prediction): (d: bool)
  {
    p.delayed == Some("true")
  }

  /** A prediction the feed marks as delayed is reported on time by the source as written. */
  lemma DelayedFlagLostAsWritten()
    ensures var p := Prediction("1700000000000", 70, None, Some("true"));
      !DelayedAsWritten(p) && IsDelayed(p)
  {
  }

  /**
    How the callback reads a prediction's delayed flag and a fragment's
    direction title: as the source is written, or as it is evidently
    intended. Nothing else differs between the two.
   */
  datatype Reading = AsWritten | AsIntended

  /** The delayed flag under `reading`: never set as written, the feed's attribute as intended. */
  function DelayedOf(p: Prediction, reading: Reading): (d: bool)
    ensures d <==> reading.AsIntended? && p.delayed == Some("true")
  {
    match reading
    case AsWritten => DelayedAsWritten(p)
    case AsIntended => IsDelayed(p)
  }

  /** A prediction's train: epoch time, seconds and car count copied, the delayed flag read under `reading`. */
  function TrainOf(p: Prediction, reading: Reading): (t: Train)
    ensures t.epochTime == p.epochTime && t.seconds == p.seconds && t.cars == p.vehiclesInConsist
    ensures t.delayed <==> reading.AsIntended? && p.delayed == Some("true")
  {
    Train(p.epochTime, p.seconds, p.vehiclesInConsist, DelayedOf(p, reading))
  }

  /**
    The prediction loop: every prediction is pushed, and the loop stops once
    `count` (the number already pushed, plus this one) reaches three.
   */
  function CapTrains(ps: seq<Prediction>, count: nat, reading: Reading): (r: seq<Train>)
    requires count < 3
    ensures |r| == if |ps| < 3 - count then |ps| else 3 - count
    ensures forall i :: 0 <= i < |r| ==> r[i] == TrainOf(ps[i], reading)
    decreases |ps|
  {
    if |ps| == 0 then []
    else if count + 1 >= 3 then [TrainOf(ps[0], reading)]
    else [TrainOf(ps[0], reading)] + CapTrains(ps[1..], count + 1, reading)
  }

  /**
    The trains of a fragment: the first three predictions of its first
    direction block, in feed order, with their fields copied; none without a
    direction block.
   */
  function TrainsOf(f: Fragment, reading: Reading): (r: seq<Train>)
    ensures f.direction.None? ==> r == []
    ensures f.direction.Some? ==>
      var ps := f.direction.value.predictions;
      && |r| == (if |ps| < 3 then |ps| else 3)
      && forall i :: 0 <= i < |r| ==>
           && r[i].epochTime == ps[i].epochTime
           && r[i].seconds == ps[i].seconds
           && r[i].cars == ps[i].vehiclesInConsist
           && (r[i].delayed <==> reading.AsIntended? && ps[i].delayed == Some("true"))
    ensures |r| <= 3
  {
    match f.direction
    case None => []
    case Some(d) => CapTrains(d.predictions, 0, reading)
  }

  function RouteOf(f: Fragment, reading: Reading): (r: Route)
  {
    Route(f.routeTag, TrainsOf(f, reading))
  }

  // ----- direction title --------------------------------------------------

  /**
    The direction title as written in the source: it reads a `title`
    property of the direction object, but the parser puts the attribute
    under `$`, so with predictions present the title is always lost.
   */
  function ResolveTitleAsWritten(f: Fragment): (t: Option<string>)
    ensures f.direction.Some? ==> t == None
    ensures f.direction.None? ==> t == f.dirTitleBecauseNoPredictions
  {
    var provisional := f.dirTitleBecauseNoPredictions;
    match f.direction
    case None => provisional
    case Some(d) => TextOf(Property(DirectionObject(d), "title"))
  }

  /**
    The object the parser builds for a `<direction>` element: its attributes
    under `$`, and its `<prediction>` children under `prediction`, a property
    set only when there is at least one such child.
   */
  function DirectionObject(d: Direction): JsValue
  {
    var attributes := if d.title.Some? then map["title" := JsString(d.title.value)] else map[];
    var children := if |d.predictions| > 0 then map["prediction" := JsArray(|d.predictions|)] else map[];
    JsObject(map["$" := JsObject(attributes)] + children)
  }

  /**
    The direction title as intended: `dirTitleBecauseNoPredictions` is
    provisional, and a direction block's `title` attribute overrides it, even
    when that attribute is absent.
   */
  function ResolveTitle(f: Fragment): (t: Option<string>)
    ensures f.direction.Some? ==> t == f.direction.value.title
    ensures f.direction.None? ==> t == f.dirTitleBecauseNoPredictions
  {
    var provisional := f.dirTitleBecauseNoPredictions;
    match f.direction
    case None => provisional
    case Some(d) => TextOf(Property(Property(DirectionObject(d), "$"), "title"))
  }

  /** The direction title under `reading`. */
  function TitleOf(f: Fragment, reading: Reading): (t: Option<string>)
    ensures f.direction.None? ==> t == f.dirTitleBecauseNoPredictions
    ensures f.direction.Some? ==> t == if reading.AsIntended? then f.direction.value.title else None
  {
    match reading
    case AsWritten => ResolveTitleAsWritten(f)
    case AsIntended => ResolveTitle(f)
  }

  /** A fragment with predictions and a titled direction loses its title as written. */
  lemma DirectionTitleLostAsWritten()
    ensures var f := Fragment("3328", "Church St", "33", None, [],
                              Some(Direction(Some("Inbound"), [Prediction("0", 90, None, None)])));
      ResolveTitleAsWritten(f) == None && ResolveTitle(f) == Some("Inbound")
  {
  }

  // ----- the fold ---------------------------------------------------------

  /** The callback's state: `schedule` in first-seen order, `seenStops` mapping a stop tag to its entry's index. */
  datatype Digest = Digest(schedule: seq<Stop>, seenStops: map<string, nat>)

  ghost predicate Indexed(d: Digest)
  {
    forall t :: t in d.seenStops ==> d.seenStops[t] < |d.schedule|
  }

  /** One pass of the fragment loop. */
  function Step(d: Digest, f: Fragment, reading: Reading): (r: Digest)
    requires Indexed(d)
    ensures Indexed(r)
    ensures r.seenStops.Keys == d.seenStops.Keys + {f.stopTag}
    ensures |r.schedule| == |d.schedule| + (if f.stopTag in d.seenStops then 0 else 1)
    ensures |r.seenStops| == |d.seenStops| + (if f.stopTag in d.seenStops then 0 else 1)
  {
    var title := TitleOf(f, reading);
    var route := RouteOf(f, reading);
    if f.stopTag in d.seenStops then
      var i := d.seenStops[f.stopTag];
      var stop := d.schedule[i];
      var stop' := stop.(routes := SortByKey(stop.routes + [route], RouteKey), directionTitle := title);
      Digest(d.schedule[i := stop'], d.seenStops)
    else
      var stop := Stop(f.stopTitle, title, SortByKey([route], RouteKey), f.messages);
      Digest(d.schedule + [stop], d.seenStops[f.stopTag := |d.schedule|])
  }

  /** The whole fragment loop, left to right. */
  function DigestAll(fs: seq<Fragment>, reading: Reading): (d: Digest)
    ensures Indexed(d)
    ensures d.seenStops.Keys == StopTags(fs)
    ensures |d.schedule| == |d.seenStops|
  {
    if |fs| == 0 then Digest([], map[])
    else
      StopTagsSnoc(fs[..|fs|-1], fs[|fs|-1]);
      assert fs == fs[..|fs|-1] + [fs[|fs|-1]];
      Step(DigestAll(fs[..|fs|-1], reading), fs[|fs|-1], reading)
  }

  /** The callback: the shape and error checks, the fold, and the final sort of the stops. */
  function Normalize(doc: Document, reading: Reading): (r: Option<Schedule>)
    ensures r.Some? <==>
      && doc.Parsed? && doc.body.Some? && doc.body.value.error.None? && doc.body.value.predictions.Some?
      && !ReadsUnsetList(doc.body.value.predictions.value)
    ensures r.Some? ==> SortedBy(r.value, StopKey)
    ensures r.Some? ==> |r.value| == |StopTags(doc.body.value.predictions.value)|
  {
    match doc
    case Unparsed => None
    case Parsed(None) => None
    case Parsed(Some(body)) =>
      if body.error.Some? then None
      else match body.predictions
        // iterating a missing fragment list throws, and nothing is sent
        case None => None
        case Some(fs) =>
          if ReadsUnsetList(fs) then None
          else
          var d := DigestAll(fs, reading);
          SortSorted(d.schedule, StopKey);
          Some(SortByKey(d.schedule, StopKey))
  }

  /**
    The parser sets no property for an element without children of a name,
    so an empty list in the feed stands for an absent one. The callback
    iterates three such lists unguarded, and throws (sending nothing) when one
    is absent: the fragment list, the messages of a stop's first fragment
    (read only when the stop is new) and the predictions of a direction block.
   */
  predicate ReadsUnsetList(fs: seq<Fragment>)
  {
    |fs| == 0 || exists i :: 0 <= i < |fs| && UnsetAt(fs, i)
  }

  /** Fragment `i` makes the callback iterate a list the parser left unset. */
  predicate UnsetAt(fs: seq<Fragment>, i: nat)
    requires i < |fs|
  {
    || (fs[i].stopTag !in StopTags(fs[..i]) && |fs[i].messages| == 0)
    || (fs[i].direction.Some? && |fs[i].direction.value.predictions| == 0)
  }

  // ----- reference definition ---------------------------------------------

  /** The stop tags named by the fragments. */
  function StopTags(fs: seq<Fragment>): set<string>
  {
    set f | f in fs :: f.stopTag
  }

  lemma {:induction false} StopTagsSnoc(fs: seq<Fragment>, f: Fragment)
    ensures StopTags(fs + [f]) == StopTags(fs) + {f.stopTag}
  {
    forall t ensures t in StopTags(fs + [f]) <==> t in StopTags(fs) + {f.stopTag} {
      if t in StopTags(fs + [f]) {
        var g :| g in fs + [f] && g.stopTag == t;
        if g != f {
          assert g in fs;
        }
      }
      if t in StopTags(fs) {
        var g :| g in fs && g.stopTag == t;
        assert g in fs + [f];
      }
      if t == f.stopTag {
        assert f in fs + [f];
      }
    }
  }

  /** The fragments naming `tag`, in feed order. */
  function Naming(fs: seq<Fragment>, tag: string): (r: seq<Fragment>)
    ensures forall f :: f in r <==> f in fs && f.stopTag == tag
    ensures |r| > 0 <==> tag in StopTags(fs)
  {
    if |fs| == 0 then []
    else
      assert fs == fs[..|fs|-1] + [fs[|fs|-1]];
      Naming(fs[..|fs|-1], tag) + (if fs[|fs|-1].stopTag == tag then [fs[|fs|-1]] else [])
  }

  /** The distinct stop tags, in order of first appearance. */
  function FirstSeenTags(fs: seq<Fragment>): (tags: seq<string>)
    ensures forall t :: t in tags <==> t in StopTags(fs)
    ensures forall i, j :: 0 <= i < j < |tags| ==> tags[i] != tags[j]
  {
    if |fs| == 0 then []
    else
      assert fs == fs[..|fs|-1] + [fs[|fs|-1]];
      var tags := FirstSeenTags(fs[..|fs|-1]);
      if fs[|fs|-1].stopTag in tags then tags else tags + [fs[|fs|-1].stopTag]
  }

  function RoutesOf(ns: seq<Fragment>, reading: Reading): (r: seq<Route>)
    ensures |r| == |ns|
    ensures forall i :: 0 <= i < |ns| ==> r[i] == RouteOf(ns[i], reading)
  {
    if |ns| == 0 then [] else RoutesOf(ns[..|ns|-1], reading) + [RouteOf(ns[|ns|-1], reading)]
  }

  /**
    The entry for `tag`: title and messages from the first fragment naming
    it, direction title from the last, and one route per naming fragment,
    stably sorted by the route key.
   */
  function ExpectedStop(fs: seq<Fragment>, tag: string, reading: Reading): (e: Stop)
    requires tag in StopTags(fs)
  {
    var ns := Naming(fs, tag);
    Stop(ns[0].stopTitle, TitleOf(ns[|ns|-1], reading), SortByKey(RoutesOf(ns, reading), RouteKey), ns[0].messages)
  }

  /** One entry per distinct stop tag, in order of first appearance. */
  function Reference(fs: seq<Fragment>, reading: Reading): (r: seq<Stop>)
    ensures |r| == |FirstSeenTags(fs)|
  {
    var tags := FirstSeenTags(fs);
    seq(|tags|, i requires 0 <= i < |tags| => ExpectedStop(fs, tags[i], reading))
  }

  // ----- the fold agrees with the reference -------------------------------

  /** `d` holds exactly the reference entries for `fs`, indexed by `seenStops`. */
  ghost predicate Tracks(d: Digest, fs: seq<Fragment>, reading: Reading)
  {
    var tags := FirstSeenTags(fs);
    && |d.schedule| == |tags|
    && (forall t :: t in d.seenStops <==> t in tags)
    && (forall i :: 0 <= i < |tags| ==> tags[i] in d.seenStops && d.seenStops[tags[i]] == i)
    && (forall i :: 0 <= i < |tags| ==> d.schedule[i] == ExpectedStop(fs, tags[i], reading))
  }

  lemma {:induction false} NamingSnoc(fs: seq<Fragment>, f: Fragment, tag: string)
    ensures Naming(fs + [f], tag) == Naming(fs, tag) + (if f.stopTag == tag then [f] else [])
  {
    assert (fs + [f])[..|fs|] == fs;
  }

  /** A fragment for a stop seen before extends that stop's entry. */
  lemma {:induction false} ExpectedStopExtends(fs: seq<Fragment>, f: Fragment, reading: Reading)
    requires f.stopTag in StopTags(fs)
    ensures f.stopTag in StopTags(fs + [f])
    ensures var prev := ExpectedStop(fs, f.stopTag, reading);
      ExpectedStop(fs + [f], f.stopTag, reading) ==
        prev.(routes := SortByKey(prev.routes + [RouteOf(f, reading)], RouteKey), directionTitle := TitleOf(f, reading))
  {
    var ns0 := Naming(fs, f.stopTag);
    NamingSnoc(fs, f, f.stopTag);
    var ns := ns0 + [f];
    assert ns[..|ns0|] == ns0;
    assert RoutesOf(ns, reading) == RoutesOf(ns0, reading) + [RouteOf(f, reading)];
    SortAfterAppend(RoutesOf(ns0, reading), RouteOf(f, reading), RouteKey);
  }

  /** A fragment for a new stop creates an entry with that fragment's title, messages and route. */
  lemma {:induction false} ExpectedStopStarts(fs: seq<Fragment>, f: Fragment, reading: Reading)
    requires f.stopTag !in StopTags(fs)
    ensures f.stopTag in StopTags(fs + [f])
    ensures ExpectedStop(fs + [f], f.stopTag, reading) ==
      Stop(f.stopTitle, TitleOf(f, reading), SortByKey([RouteOf(f, reading)], RouteKey), f.messages)
  {
    NamingSnoc(fs, f, f.stopTag);
    assert Naming(fs, f.stopTag) == [];
    assert Naming(fs + [f], f.stopTag) == [f];
    assert [f][..0] == [];
    assert RoutesOf([f], reading) == [RouteOf(f, reading)];
  }

  /** A fragment for another stop leaves this stop's entry alone. */
  lemma {:induction false} ExpectedStopUnchanged(fs: seq<Fragment>, f: Fragment, tag: string, reading: Reading)
    requires tag in StopTags(fs) && f.stopTag != tag
    ensures tag in StopTags(fs + [f])
    ensures ExpectedStop(fs + [f], tag, reading) == ExpectedStop(fs, tag, reading)
  {
    NamingSnoc(fs, f, tag);
    assert Naming(fs + [f], tag) == Naming(fs, tag);
  }

  lemma {:induction false} FirstSeenTagsSnoc(fs: seq<Fragment>, f: Fragment)
    ensures FirstSeenTags(fs + [f]) ==
      if f.stopTag in FirstSeenTags(fs) then FirstSeenTags(fs) else FirstSeenTags(fs) + [f.stopTag]
  {
    assert (fs + [f])[..|fs|] == fs;
  }

  /** A fragment for a stop already in the schedule updates that entry in place. */
  lemma {:induction false} StepTracksSeen(d: Digest, fs: seq<Fragment>, f: Fragment, reading: Reading)
    requires Indexed(d) && Tracks(d, fs, reading) && f.stopTag in d.seenStops
    ensures Tracks(Step(d, f, reading), fs + [f], reading)
  {
    var tags := FirstSeenTags(fs);
    FirstSeenTagsSnoc(fs, f);
    assert f.stopTag in tags;
    assert FirstSeenTags(fs + [f]) == tags;
    var d' := Step(d, f, reading);
    SeenShape(d, f, reading);
    forall i | 0 <= i < |tags| ensures d'.schedule[i] == ExpectedStop(fs + [f], tags[i], reading) {
      SeenEntry(d, fs, f, i, reading);
    }
  }

  lemma {:induction false} SeenShape(d: Digest, f: Fragment, reading: Reading)
    requires Indexed(d) && f.stopTag in d.seenStops
    ensures Step(d, f, reading).seenStops == d.seenStops
    ensures |Step(d, f, reading).schedule| == |d.schedule|
  {
  }

  lemma {:induction false} SeenEntry(d: Digest, fs: seq<Fragment>, f: Fragment, i: nat, reading: Reading)
    requires Indexed(d) && Tracks(d, fs, reading) && f.stopTag in d.seenStops
    requires i < |FirstSeenTags(fs)|
    ensures FirstSeenTags(fs)[i] in StopTags(fs + [f])
    ensures Step(d, f, reading).schedule[i] == ExpectedStop(fs + [f], FirstSeenTags(fs)[i], reading)
  {
    var tags := FirstSeenTags(fs);
    var j :| 0 <= j < |tags| && tags[j] == f.stopTag;
    assert d.seenStops[f.stopTag] == j;
    var stop := d.schedule[j];
    var stop' := stop.(routes := SortByKey(stop.routes + [RouteOf(f, reading)], RouteKey), directionTitle := TitleOf(f, reading));
    assert Step(d, f, reading) == Digest(d.schedule[j := stop'], d.seenStops);
    if i == j {
      ExpectedStopExtends(fs, f, reading);
    } else {
      assert tags[i] != f.stopTag;
      ExpectedStopUnchanged(fs, f, tags[i], reading);
    }
  }

  /** A fragment for a new stop appends its entry and indexes it. */
  lemma {:induction false} StepTracksNew(d: Digest, fs: seq<Fragment>, f: Fragment, reading: Reading)
    requires Indexed(d) && Tracks(d, fs, reading) && f.stopTag !in d.seenStops
    ensures Tracks(Step(d, f, reading), fs + [f], reading)
  {
    var tags := FirstSeenTags(fs);
    var tags' := tags + [f.stopTag];
    FirstSeenTagsSnoc(fs, f);
    assert FirstSeenTags(fs + [f]) == tags';
    var d' := Step(d, f, reading);
    NewShape(d, f, reading);
    forall i | 0 <= i < |tags'|
      ensures d'.schedule[i] == ExpectedStop(fs + [f], tags'[i], reading)
    {
      NewEntry(d, fs, f, i, reading);
    }
    NewIndex(d, fs, f, reading);
  }

  lemma {:induction false} NewIndex(d: Digest, fs: seq<Fragment>, f: Fragment, reading: Reading)
    requires Indexed(d) && Tracks(d, fs, reading) && f.stopTag !in d.seenStops
    ensures var tags', m := FirstSeenTags(fs) + [f.stopTag], Step(d, f, reading).seenStops;
      && (forall t :: t in m <==> t in tags')
      && (forall i :: 0 <= i < |tags'| ==> tags'[i] in m && m[tags'[i]] == i)
  {
    NewShape(d, f, reading);
    IndexAppend(FirstSeenTags(fs), d.seenStops, f.stopTag);
  }

  /** Appending a new tag at the end and indexing it there keeps the index exact. */
  lemma {:induction false} IndexAppend(tags: seq<string>, m: map<string, nat>, t: string)
    requires forall s :: s in m <==> s in tags
    requires forall i :: 0 <= i < |tags| ==> tags[i] in m && m[tags[i]] == i
    requires t !in m
    ensures var tags', m' := tags + [t], m[t := |tags|];
      && (forall s :: s in m' <==> s in tags')
      && (forall i :: 0 <= i < |tags'| ==> tags'[i] in m' && m'[tags'[i]] == i)
  {
    var tags', m' := tags + [t], m[t := |tags|];
    forall i | 0 <= i < |tags'|
      ensures tags'[i] in m' && m'[tags'[i]] == i
    {
      if i < |tags| {
        assert tags'[i] == tags[i] != t;
      }
    }
  }

  lemma {:induction false} NewShape(d: Digest, f: Fragment, reading: Reading)
    requires Indexed(d) && f.stopTag !in d.seenStops
    ensures Step(d, f, reading) == Digest(d.schedule + [Stop(f.stopTitle, TitleOf(f, reading), SortByKey([RouteOf(f, reading)], RouteKey), f.messages)],
                                 d.seenStops[f.stopTag := |d.schedule|])
  {
  }

  lemma {:induction false} NewEntry(d: Digest, fs: seq<Fragment>, f: Fragment, i: nat, reading: Reading)
    requires Indexed(d) && Tracks(d, fs, reading) && f.stopTag !in d.seenStops
    requires i <= |FirstSeenTags(fs)|
    ensures (FirstSeenTags(fs) + [f.stopTag])[i] in StopTags(fs + [f])
    ensures Step(d, f, reading).schedule[i] == ExpectedStop(fs + [f], (FirstSeenTags(fs) + [f.stopTag])[i], reading)
  {
    var tags := FirstSeenTags(fs);
    NewShape(d, f, reading);
    if i == |tags| {
      ExpectedStopStarts(fs, f, reading);
    } else {
      assert tags[i] in d.seenStops;
      ExpectedStopUnchanged(fs, f, tags[i], reading);
    }
  }

  /**
    After every prefix of the feed, the fold's schedule holds one entry per
    stop tag seen so far, in first-seen order, each equal to the reference
    entry: routes a stably sorted permutation of the appended routes, title
    and messages from the first fragment, direction title from the last.
   */
  lemma {:induction false} DigestTracksReference(fs: seq<Fragment>, reading: Reading)
    ensures Tracks(DigestAll(fs, reading), fs, reading)
  {
    if |fs| > 0 {
      DigestTracksReference(fs[..|fs|-1], reading);
      TracksSnoc(fs[..|fs|-1], fs[|fs|-1], reading);
      TracksSplit(fs, reading);
    }
  }

  /** The induction step: if the fold tracks the reference on `init`, it does on `init + [f]`. */
  lemma {:induction false} TracksSnoc(init: seq<Fragment>, f: Fragment, reading: Reading)
    requires Tracks(DigestAll(init, reading), init, reading)
    ensures Tracks(DigestAll(init + [f], reading), init + [f], reading)
  {
    DigestAllSnoc(init, f, reading);
    StepTracks(DigestAll(init, reading), init, f, reading);
  }

  /** A non-empty feed is its prefix followed by its last fragment. */
  lemma {:induction false} TracksSplit(fs: seq<Fragment>, reading: Reading)
    requires |fs| > 0
    requires Tracks(DigestAll(fs[..|fs|-1] + [fs[|fs|-1]], reading), fs[..|fs|-1] + [fs[|fs|-1]], reading)
    ensures Tracks(DigestAll(fs, reading), fs, reading)
  {
    LastSplit(fs);
  }

  lemma LastSplit(fs: seq<Fragment>)
    requires |fs| > 0
    ensures fs == fs[..|fs|-1] + [fs[|fs|-1]]
  {
  }

  /** One pass of the fragment loop keeps the schedule equal to the reference. */
  lemma {:induction false} StepTracks(d: Digest, fs: seq<Fragment>, f: Fragment, reading: Reading)
    requires Indexed(d) && Tracks(d, fs, reading)
    ensures Tracks(Step(d, f, reading), fs + [f], reading)
  {
    if f.stopTag in d.seenStops {
      StepTracksSeen(d, fs, f, reading);
    } else {
      StepTracksNew(d, fs, f, reading);
    }
  }

  /** The fold's schedule is the reference schedule. */
  lemma {:induction false} DigestIsReference(fs: seq<Fragment>, reading: Reading)
    ensures DigestAll(fs, reading).schedule == Reference(fs, reading)
  {
    DigestTracksReference(fs, reading);
  }

  // ----- properties of the emitted schedule -------------------------------

  /**
    A well-formed feed yields the reference entries, stably sorted by the
    stop key: whatever stable sort the runtime uses, it is this schedule.
   */
  lemma {:induction false} NormalizeIsSortedReference(fs: seq<Fragment>, reading: Reading)
    ensures Normalize(Parsed(Some(Body(None, Some(fs)))), reading) ==
      if ReadsUnsetList(fs) then None else Some(SortByKey(Reference(fs, reading), StopKey))
    ensures forall k :: Class(SortByKey(Reference(fs, reading), StopKey), StopKey, k) == Class(Reference(fs, reading), StopKey, k)
  {
    DigestIsReference(fs, reading);
    SortIsStableSort(Reference(fs, reading), StopKey);
  }

  /** The reference holds the entry of every named stop tag and nothing else. */
  lemma {:induction false} ReferenceMembers(fs: seq<Fragment>, reading: Reading)
    ensures forall s :: s in Reference(fs, reading) <==> exists t :: t in StopTags(fs) && s == ExpectedStop(fs, t, reading)
  {
    forall s | s in Reference(fs, reading) ensures exists t :: t in StopTags(fs) && s == ExpectedStop(fs, t, reading) {
      ReferenceEntryNamed(fs, s, reading);
    }
    forall t | t in StopTags(fs) ensures ExpectedStop(fs, t, reading) in Reference(fs, reading) {
      ReferenceHoldsTag(fs, t, reading);
    }
  }

  lemma {:induction false} ReferenceEntryNamed(fs: seq<Fragment>, s: Stop, reading: Reading)
    requires s in Reference(fs, reading)
    ensures exists t :: t in StopTags(fs) && s == ExpectedStop(fs, t, reading)
  {
    var tags := FirstSeenTags(fs);
    var ref := Reference(fs, reading);
    var i :| 0 <= i < |ref| && ref[i] == s;
    assert tags[i] in tags;
    assert s == ExpectedStop(fs, tags[i], reading);
  }

  lemma {:induction false} ReferenceHoldsTag(fs: seq<Fragment>, t: string, reading: Reading)
    requires t in StopTags(fs)
    ensures ExpectedStop(fs, t, reading) in Reference(fs, reading)
  {
    var tags := FirstSeenTags(fs);
    var ref := Reference(fs, reading);
    assert t in tags;
    var i :| 0 <= i < |tags| && tags[i] == t;
    assert ref[i] == ExpectedStop(fs, t, reading);
  }

  /**
    The emitted schedule holds exactly one entry per distinct stop tag: it is
    a rearrangement of the reference entries, one for each tag.
   */
  lemma {:induction false} OneEntryPerStopTag(fs: seq<Fragment>, reading: Reading)
    ensures !ReadsUnsetList(fs) ==>
      var sched := Normalize(Parsed(Some(Body(None, Some(fs)))), reading).value;
      && |sched| == |FirstSeenTags(fs)|
      && multiset(sched) == multiset(Reference(fs, reading))
      && forall s :: s in sched <==> exists t :: t in StopTags(fs) && s == ExpectedStop(fs, t, reading)
  {
    if ReadsUnsetList(fs) { return; }
    var sched := Normalize(Parsed(Some(Body(None, Some(fs)))), reading).value;
    NormalizeIsSortedReference(fs, reading);
    assert sched == SortByKey(Reference(fs, reading), StopKey);
    assert |sched| == |FirstSeenTags(fs)|;
    assert multiset(sched) == multiset(Reference(fs, reading));
    EmittedMembers(fs, sched, reading);
  }

  lemma {:induction false} EmittedMembers(fs: seq<Fragment>, sched: seq<Stop>, reading: Reading)
    requires multiset(sched) == multiset(Reference(fs, reading))
    ensures forall s :: s in sched <==> exists t :: t in StopTags(fs) && s == ExpectedStop(fs, t, reading)
  {
    forall s ensures s in sched <==> exists t :: t in StopTags(fs) && s == ExpectedStop(fs, t, reading) {
      EmittedMember(fs, sched, s, reading);
    }
  }

  lemma {:induction false} EmittedMember(fs: seq<Fragment>, sched: seq<Stop>, s: Stop, reading: Reading)
    requires multiset(sched) == multiset(Reference(fs, reading))
    ensures s in sched <==> exists t :: t in StopTags(fs) && s == ExpectedStop(fs, t, reading)
  {
    var ref := Reference(fs, reading);
    assert s in sched <==> s in multiset(sched);
    assert s in ref <==> s in multiset(ref);
    ReferenceMembers(fs, reading);
  }

  /**
    The entry for a stop tag: as many routes as fragments naming it, sorted
    by the route key, a permutation of those fragments' routes that keeps
    ties in feed order; title and messages from the first such fragment;
    direction title resolved from the last.
   */
  lemma {:induction false} StopEntryContents(fs: seq<Fragment>, tag: string, reading: Reading)
    requires tag in StopTags(fs)
    ensures var s, ns := ExpectedStop(fs, tag, reading), Naming(fs, tag);
      && |ns| > 0
      && |s.routes| == |ns|
      && SortedBy(s.routes, RouteKey)
      && multiset(s.routes) == multiset(RoutesOf(ns, reading))
      && (forall k :: Class(s.routes, RouteKey, k) == Class(RoutesOf(ns, reading), RouteKey, k))
      && s.stopTitle == ns[0].stopTitle
      && s.messages == ns[0].messages
      && s.directionTitle == TitleOf(ns[|ns|-1], reading)
  {
    var ns := Naming(fs, tag);
    assert ExpectedStop(fs, tag, reading).routes == SortByKey(RoutesOf(ns, reading), RouteKey);
    SortIsStableSort(RoutesOf(ns, reading), RouteKey);
  }

  /**
    Every emitted stop lists its routes in route-key order, each with at
    most three trains.
   */
  lemma {:induction false} EmittedRoutesSorted(fs: seq<Fragment>, reading: Reading)
    ensures !ReadsUnsetList(fs) ==>
      var sched := Normalize(Parsed(Some(Body(None, Some(fs)))), reading).value;
      forall s :: s in sched ==>
        SortedBy(s.routes, RouteKey) && forall r :: r in s.routes ==> |r.trains| <= 3
  {
    if ReadsUnsetList(fs) { return; }
    var sched := Normalize(Parsed(Some(Body(None, Some(fs)))), reading).value;
    NormalizeIsSortedReference(fs, reading);
    EmittedMembers(fs, sched, reading);
    forall s | s in sched
      ensures SortedBy(s.routes, RouteKey) && forall r :: r in s.routes ==> |r.trains| <= 3
    {
      var t :| t in StopTags(fs) && s == ExpectedStop(fs, t, reading);
      EntryRoutesSorted(fs, t, reading);
    }
  }

  lemma {:induction false} EntryRoutesSorted(fs: seq<Fragment>, tag: string, reading: Reading)
    requires tag in StopTags(fs)
    ensures var s := ExpectedStop(fs, tag, reading);
      SortedBy(s.routes, RouteKey) && forall r :: r in s.routes ==> |r.trains| <= 3
  {
    var ns := Naming(fs, tag);
    var routes := RoutesOf(ns, reading);
    SortSorted(routes, RouteKey);
    SameMembers(SortByKey(routes, RouteKey), routes);
  }

  /**
    The last fragment naming a stop decides its direction title, even when
    an earlier fragment had one and the last resolves to none. As written,
    a last fragment with a direction block always leaves the stop untitled.
   */
  lemma {:induction false} LastFragmentTitleWins(fs: seq<Fragment>, f: Fragment, reading: Reading)
    ensures f.stopTag in StopTags(fs + [f])
    ensures ExpectedStop(fs + [f], f.stopTag, reading).directionTitle ==
      if f.direction.None? then f.dirTitleBecauseNoPredictions
      else if reading.AsIntended? then f.direction.value.title
      else None
  {
    NamingSnoc(fs, f, f.stopTag);
  }

  /** A well-formed feed is folded, and the fold's schedule sorted by the stop key. */
  lemma {:induction false} NormalizeFolds(fs: seq<Fragment>, reading: Reading)
    ensures Normalize(Parsed(Some(Body(None, Some(fs)))), reading) ==
      if ReadsUnsetList(fs) then None else Some(SortByKey(DigestAll(fs, reading).schedule, StopKey))
  {
  }

  /** The first fragment opens the schedule with its stop, holding its one route. */
  lemma {:induction false} OpeningFragment(f: Fragment, reading: Reading)
    ensures DigestAll([f], reading) == Digest([Stop(f.stopTitle, TitleOf(f, reading), [RouteOf(f, reading)], f.messages)], map[f.stopTag := 0])
  {
    assert [f][..0] == [];
    SortSingleton(RouteOf(f, reading), RouteKey);
    assert DigestAll([f], reading) == Step(Digest([], map[]), f, reading);
  }

  /**
    A second fragment for the same stop adds its route to the entry, in
    route-key order, and its direction title replaces the first one.
   */
  lemma {:induction false} SecondFragmentSameStop(f: Fragment, g: Fragment, reading: Reading)
    requires g.stopTag == f.stopTag
    ensures DigestAll([f, g], reading).schedule ==
      [Stop(f.stopTitle, TitleOf(g, reading), SortByKey([RouteOf(f, reading)] + [RouteOf(g, reading)], RouteKey), f.messages)]
  {
    OpeningFragment(f, reading);
    DigestAllSnoc([f], g, reading);
    assert [f] + [g] == [f, g];
    JoinOpenedStop(f, g, reading);
  }

  lemma {:induction false} DigestAllSnoc(fs: seq<Fragment>, f: Fragment, reading: Reading)
    ensures DigestAll(fs + [f], reading) == Step(DigestAll(fs, reading), f, reading)
  {
    assert (fs + [f])[..|fs|] == fs;
  }

  lemma {:induction false} JoinOpenedStop(f: Fragment, g: Fragment, reading: Reading)
    requires g.stopTag == f.stopTag
    ensures Step(Digest([Stop(f.stopTitle, TitleOf(f, reading), [RouteOf(f, reading)], f.messages)], map[f.stopTag := 0]), g, reading).schedule ==
      [Stop(f.stopTitle, TitleOf(g, reading), SortByKey([RouteOf(f, reading)] + [RouteOf(g, reading)], RouteKey), f.messages)]
  {
  }

  // ----- a worked example -------------------------------------------------

  function ArrivingIn(s: nat): Prediction
  {
    Prediction("0", s, None, None)
  }

  function TrainIn(s: nat): Train
  {
    Train("0", s, None, false)
  }

  /** A service alert, as the parser passes a `<message>` element's attributes. */
  const ExampleAlert := Message([("text", "Muni alert")])

  /** Route 33 at stop 3328, with a service alert and four predictions. */
  const ExampleA := Fragment("3328", "Church St", "33", None, [ExampleAlert],
    Some(Direction(Some("Outbound"), [ArrivingIn(10), ArrivingIn(70), ArrivingIn(200), ArrivingIn(500)])))

  /** Route N at the same stop, with one prediction the feed marks as delayed; its messages are not read. */
  const ExampleB := Fragment("3328", "Church St", "N", None, [],
    Some(Direction(Some("Inbound"), [Prediction("0", 30, None, Some("true"))])))

  /** The example's one entry: untitled and never delayed as written, "Inbound" and delayed as intended. */
  function ExampleStop(reading: Reading): Stop
  {
    Stop("Church St", if reading.AsIntended? then Some("Inbound") else None,
         [Route("N", [Train("0", 30, None, reading.AsIntended?)]),
          Route("33", [TrainIn(10), TrainIn(70), TrainIn(200)])], [ExampleAlert])
  }

  lemma {:induction false} ExampleRoutes(reading: Reading)
    ensures RouteOf(ExampleA, reading) == Route("33", [TrainIn(10), TrainIn(70), TrainIn(200)])
    ensures RouteOf(ExampleB, reading) == Route("N", [Train("0", 30, None, reading.AsIntended?)])
  {
  }

  lemma {:induction false} ExampleRouteOrder(reading: Reading)
    ensures SortByKey([RouteOf(ExampleA, reading)] + [RouteOf(ExampleB, reading)], RouteKey) == [RouteOf(ExampleB, reading), RouteOf(ExampleA, reading)]
  {
    var r33, rN := RouteOf(ExampleA, reading), RouteOf(ExampleB, reading);
    RouteKeyExample();
    assert RouteKey(rN) == RouteKey(Route("N", []));
    assert RouteKey(r33) == RouteKey(Route("33", []));
    SortPair(r33, rN, RouteKey);
  }

  /** The example's fold: one entry, both routes, the second fragment's direction title. */
  lemma {:induction false} ExampleSchedule(reading: Reading)
    ensures DigestAll([ExampleA, ExampleB], reading).schedule == [ExampleStop(reading)]
  {
    SecondFragmentSameStop(ExampleA, ExampleB, reading);
    ExampleRouteOrder(reading);
    ExampleRoutes(reading);
  }

  /**
    The worked example: two fragments for one stop give one entry whose
    routes are ordered "N" (key 78) before "33" (key 102), route 33 keeping
    its first three trains. As intended the entry is titled by the last
    fragment's direction and route N's train is delayed; as written the
    entry has no direction title and no train is delayed.
   */
  lemma {:induction false} TwoFragmentsOneStop(reading: Reading)
    ensures Normalize(Parsed(Some(Body(None, Some([ExampleA, ExampleB])))), reading) == Some([ExampleStop(reading)])
  {
    ExampleReadsEveryList();
    NormalizeFolds([ExampleA, ExampleB], reading);
    ExampleSchedule(reading);
    SortSingleton(ExampleStop(reading), StopKey);
  }

  /** The example feed has every list the callback iterates. */
  lemma {:induction false} ExampleReadsEveryList()
    ensures !ReadsUnsetList([ExampleA, ExampleB])
  {
    var fs := [ExampleA, ExampleB];
    assert fs[..1] == [ExampleA];
    assert ExampleA in fs[..1];
    assert !UnsetAt(fs, 0) && !UnsetAt(fs, 1);
  }
}

=== FILE: pipeline.dfy ===
/**
  One refresh cycle end to end: the helper normalizes a feed response and,
  when it sends a schedule, the display stores it and renders it.
 */
module Pipeline {
  import opened Wrappers
  import opened Feed
  import opened Schedule
  import opened StableSort
  import opened Normalizer
  import opened Display

  /** A response the helper drops, or throws on, is never shown. */
  predicate Dropped(doc: Document)
  {
    !(&& doc.Parsed? && doc.body.Some? && doc.body.value.error.None? && doc.body.value.predictions.Some?
      && !ReadsUnsetList(doc.body.value.predictions.value))
  }

  /**
    The stored schedule after one response: kept when the helper drops the
    response, otherwise replaced by a schedule sorted by the stop key with
    one entry per distinct stop tag.
   */
  function Refresh(stored: Option<Schedule>, doc: Document, reading: Reading): (r: Option<Schedule>)
    ensures Dropped(doc) ==> r == stored
    ensures !Dropped(doc) ==> r.Some? && SortedBy(r.value, StopKey)
    ensures !Dropped(doc) ==> |r.value| == |StopTags(doc.body.value.predictions.value)|
  {
    match Normalize(doc, reading)
    case None => stored
    case Some(schedule) => Receive(stored, TimingsNotification, schedule)
  }

  /**
    A dropped response (unparsed, no body, an error element, no fragment
    list, or a list the callback throws on) leaves the screen as it was; before any schedule arrived, that is
    the loading text.
   */
  lemma {:induction false} DroppedResponseKeepsView(stored: Option<Schedule>, doc: Document, reading: Reading)
    requires Dropped(doc)
    ensures GetDom(Refresh(stored, doc, reading)) == GetDom(stored)
    ensures stored.None? ==> GetDom(Refresh(stored, doc, reading)) == Placeholder(LoadingText)
  {
  }

  /**
    After a well-formed response the screen shows, whatever it showed before,
    one panel per distinct stop tag: the reference entries in stop-key order,
    each stop tag's entry among them. A feed with a list the callback throws
    on leaves the screen as it was.
   */
  lemma {:induction false} AcceptedResponseShowsEveryStop(stored: Option<Schedule>, fs: seq<Fragment>, reading: Reading)
    ensures ReadsUnsetList(fs) ==>
      GetDom(Refresh(stored, Parsed(Some(Body(None, Some(fs)))), reading)) == GetDom(stored)
    ensures !ReadsUnsetList(fs) ==>
      var v := GetDom(Refresh(stored, Parsed(Some(Body(None, Some(fs)))), reading));
      && v.Panels?
      && |v.stops| == |FirstSeenTags(fs)|
      && (forall i :: 0 <= i < |v.stops| ==> v.stops[i] == Panel(SortByKey(Reference(fs, reading), StopKey)[i]))
      && (forall t :: t in StopTags(fs) ==> Panel(ExpectedStop(fs, t, reading)) in v.stops)
  {
    if ReadsUnsetList(fs) { return; }
    var doc := Parsed(Some(Body(None, Some(fs))));
    var sched := SortByKey(Reference(fs, reading), StopKey);
    NormalizeIsSortedReference(fs, reading);
    RefreshStoresSent(stored, doc, reading);
    SortedHoldsEveryEntry(fs, reading);
    PanelsShowEntries(sched, fs, reading);
  }

  lemma {:induction false} RefreshStoresSent(stored: Option<Schedule>, doc: Document, reading: Reading)
    ensures Normalize(doc, reading).Some? ==> Refresh(stored, doc, reading) == Normalize(doc, reading)
  {
  }

  /** Every stop tag's reference entry survives the final sort. */
  lemma {:induction false} SortedHoldsEveryEntry(fs: seq<Fragment>, reading: Reading)
    ensures forall t :: t in StopTags(fs) ==> ExpectedStop(fs, t, reading) in SortByKey(Reference(fs, reading), StopKey)
  {
    SameMembers(SortByKey(Reference(fs, reading), StopKey), Reference(fs, reading));
    forall t | t in StopTags(fs) ensures ExpectedStop(fs, t, reading) in Reference(fs, reading) {
      ReferenceHoldsTag(fs, t, reading);
    }
  }

  /** Every stop tag whose entry is in the schedule has that entry's panel on screen. */
  lemma {:induction false} PanelsShowEntries(sched: Schedule, fs: seq<Fragment>, reading: Reading)
    requires forall t :: t in StopTags(fs) ==> ExpectedStop(fs, t, reading) in sched
    ensures forall t :: t in StopTags(fs) ==> Panel(ExpectedStop(fs, t, reading)) in GetDom(Some(sched)).stops
  {
    var v := GetDom(Some(sched));
    forall t | t in StopTags(fs) ensures Panel(ExpectedStop(fs, t, reading)) in v.stops {
      var i :| 0 <= i < |sched| && sched[i] == ExpectedStop(fs, t, reading);
      assert v.stops[i] == Panel(ExpectedStop(fs, t, reading));
    }
  }

  /**
    As written, a stop whose last fragment has a direction block is shown
    under its bare title: the panel on screen has the stop title as its
    whole header, with no ": " and no direction.
   */
  lemma {:induction false} AsWrittenHeaderIsBareTitle(stored: Option<Schedule>, fs: seq<Fragment>, f: Fragment)
    requires f.direction.Some?
    ensures f.stopTag in StopTags(fs + [f])
    ensures !ReadsUnsetList(fs + [f]) ==>
      var e := ExpectedStop(fs + [f], f.stopTag, AsWritten);
      && Panel(e) in GetDom(Refresh(stored, Parsed(Some(Body(None, Some(fs + [f])))), AsWritten)).stops
      && Panel(e).header == e.stopTitle
  {
    LastFragmentTitleWins(fs, f, AsWritten);
    AcceptedResponseShowsEveryStop(stored, fs + [f], AsWritten);
  }

  /**
    A stop whose first fragment carries no `<message>` element makes the
    callback iterate an unset list: it throws, and the screen stays as it was.
   */
  lemma {:induction false} MissingMessagesKeepView(stored: Option<Schedule>, f: Fragment, reading: Reading)
    requires |f.messages| == 0
    ensures Refresh(stored, Parsed(Some(Body(None, Some([f])))), reading) == stored
  {
    assert [f][..0] == [];
    assert UnsetAt([f], 0);
  }
}

=== FILE: schedule.dfy ===
/**
  The normalized schedule the helper sends to the display, and the weak
  sort keys that order it.
 */
module Schedule {
  import opened Wrappers
  import opened Feed

  /** One predicted arrival. `cars` is the `vehiclesInConsist` attribute. */
  datatype Train = Train(epochTime: string, seconds: nat, cars: Option<string>, delayed: bool)

  /** One route row of a stop: at most three trains, in feed order. */
  datatype Route = Route(routeTag: string, trains: seq<Train>)

  /** One entry per distinct stop tag. */
  datatype Stop = Stop(
    stopTitle: string,
    directionTitle: Option<string>,
    routes: seq<Route>,
    messages: seq<Message>)

  type Schedule = seq<Stop>

  /** Sum of the character codes of `s`. */
  function CodeSum(s: string): (sum: nat)
  {
    if |s| == 0 then 0 else CodeSum(s[..|s|-1]) + s[|s|-1] as nat
  }

  /** The first `min(|s|, n)` characters of `s`. */
  function Prefix(s: string, n: nat): (p: string)
  {
    if |s| <= n then s else s[..n]
  }

  /** The weak key: sum of the character codes of the first `min(|s|, n)` characters. */
  function PrefixCodeSum(s: string, n: nat): (sum: nat)
  {
    CodeSum(Prefix(s, n))
  }

  /**
    The comparator's loop: it adds up the codes of the first `min(|s|, n)`
    characters, one index at a time, which is the weak key.
   */
  method LoopSum(s: string, n: nat) returns (sum: nat)
    ensures sum == PrefixCodeSum(s, n)
  {
    sum := 0;
    var bound := if |s| < n then |s| else n;
    var i := 0;
    while i < bound
      invariant 0 <= i <= bound
      invariant sum == CodeSum(s[..i])
    {
      assert s[..i + 1][..i] == s[..i];
      sum := sum + s[i] as nat;
      i := i + 1;
    }
    assert s[..bound] == Prefix(s, n);
  }

  /**
    The sort comparator on `n`-character prefixes: `aSum - bSum`, negative
    exactly when `a` goes first, zero exactly when the keys tie.
   */
  method Compare(a: string, b: string, n: nat) returns (c: int)
    ensures c < 0 <==> PrefixCodeSum(a, n) < PrefixCodeSum(b, n)
    ensures c == 0 <==> PrefixCodeSum(a, n) == PrefixCodeSum(b, n)
    ensures c == PrefixCodeSum(a, n) - PrefixCodeSum(b, n)
  {
    var aSum := LoopSum(a, n);
    var bSum := LoopSum(b, n);
    c := aSum as int - bSum as int;
  }

  /** Routes are ordered by the code sum of the first three characters of the route tag. */
  function RouteKey(r: Route): (k: int)
    ensures var t := r.routeTag;
      |t| >= 3 ==> k == t[0] as int + t[1] as int + t[2] as int
    ensures |r.routeTag| < 3 ==> k == CodeSum(r.routeTag)
  {
    var t := r.routeTag;
    assert |t| >= 3 ==> CodeSum(Prefix(t, 3)) == t[0] as int + t[1] as int + t[2] as int by {
      if |t| >= 3 {
        CodeSumOfFirst(t, 3);
        assert |t| == 3 ==> t[..3] == t;
      }
    }
    PrefixCodeSum(t, 3)
  }

  /** Stops are ordered by the code sum of the first four characters of the stop title. */
  function StopKey(s: Stop): (k: int)
    ensures var t := s.stopTitle;
      |t| >= 4 ==> k == t[0] as int + t[1] as int + t[2] as int + t[3] as int
    ensures |s.stopTitle| < 4 ==> k == CodeSum(s.stopTitle)
  {
    var t := s.stopTitle;
    assert |t| >= 4 ==> CodeSum(Prefix(t, 4)) == t[0] as int + t[1] as int + t[2] as int + t[3] as int by {
      if |t| >= 4 {
        CodeSumOfFirst(t, 4);
        assert |t| == 4 ==> t[..4] == t;
      }
    }
    PrefixCodeSum(t, 4)
  }

  /** The code sum of the first one to four characters, spelled out. */
  lemma {:induction false} CodeSumOfFirst(t: string, n: nat)
    requires 1 <= n <= 4 && |t| >= n
    ensures CodeSum(t[..n]) == t[0] as int + (if n > 1 then t[1] as int else 0)
      + (if n > 2 then t[2] as int else 0) + (if n > 3 then t[3] as int else 0)
  {
    assert t[..n][..n-1] == t[..n-1];
    if n > 1 {
      CodeSumOfFirst(t, n - 1);
    } else {
      assert t[..1][..0] == [];
    }
  }

  lemma {:induction false} CodeSumAppend(a: string, b: string)
    ensures CodeSum(a + b) == CodeSum(a) + CodeSum(b)
    decreases |b|
  {
    if |b| == 0 {
      assert a + b == a;
    } else {
      assert (a + b)[..|a + b|-1] == a + b[..|b|-1];
      CodeSumAppend(a, b[..|b|-1]);
    }
  }

  /** The code sum ignores the order of the characters. */
  lemma {:induction false} CodeSumPermutation(s: string, t: string)
    requires multiset(s) == multiset(t)
    ensures CodeSum(s) == CodeSum(t)
    decreases |s|
  {
    if |s| == 0 {
      assert |t| == |multiset(t)| == 0;
    } else {
      var x := s[|s|-1];
      var s' := s[..|s|-1];
      assert x in multiset(t);
      var j :| 0 <= j < |t| && t[j] == x;
      var t' := t[..j] + t[j+1..];
      MultisetRemove(s, |s|-1);
      assert s[..|s|-1] + s[|s|..] == s';
      MultisetRemove(t, j);
      CodeSumPermutation(s', t');
      CodeSumRemove(t, j);
      CodeSumRemove(s, |s|-1);
    }
  }

  lemma {:induction false} MultisetRemove(t: string, j: nat)
    requires j < |t|
    ensures multiset(t[..j] + t[j+1..]) == multiset(t) - multiset{t[j]}
  {
    assert t == t[..j] + [t[j]] + t[j+1..];
  }

  lemma {:induction false} CodeSumRemove(t: string, j: nat)
    requires j < |t|
    ensures CodeSum(t) == CodeSum(t[..j] + t[j+1..]) + t[j] as nat
  {
    var x := t[j];
    assert t == t[..j] + [x] + t[j+1..];
    CodeSumAppend(t[..j], [x]);
    CodeSumAppend(t[..j] + [x], t[j+1..]);
    CodeSumAppend(t[..j], t[j+1..]);
    assert CodeSum([x]) == x as nat by {
      assert [x][..0] == [];
    }
  }

  /** The key reads the first `n` characters and nothing after them. */
  lemma PrefixCodeSumReadsPrefix(a: string, b: string, n: nat)
    requires |a| >= n && |b| >= n && a[..n] == b[..n]
    ensures PrefixCodeSum(a, n) == PrefixCodeSum(b, n)
  {
    if |a| == n {
      assert a == a[..n];
    }
    if |b| == n {
      assert b == b[..n];
    }
  }

  /**
    The key is not an alphabetical comparison: route tags whose first three
    characters are rearrangements of each other tie, and keep feed order.
   */
  lemma RouteKeyTiesOnRearrangement(a: Route, b: Route)
    requires multiset(Prefix(a.routeTag, 3)) == multiset(Prefix(b.routeTag, 3))
    ensures RouteKey(a) == RouteKey(b)
  {
    CodeSumPermutation(Prefix(a.routeTag, 3), Prefix(b.routeTag, 3));
  }

  /** A single letter sorts before a two-digit route: "N" (78) before "33" (51 + 51). */
  lemma RouteKeyExample()
    ensures RouteKey(Route("N", [])) < RouteKey(Route("33", []))
    ensures RouteKey(Route("KT", [])) == RouteKey(Route("TK", []))
  {
    assert "33"[..1] == "3";
    assert "N"[..0] == [];
    assert "3"[..0] == [];
    assert multiset("KT") == multiset("TK");
    RouteKeyTiesOnRearrangement(Route("KT", []), Route("TK", []));
  }
}

=== FILE: stable_sort.dfy ===
/**
  A stable sort on an integer key.

  The source sorts with `Array.prototype.sort` and a comparator that returns
  `key(a) - key(b)`. Since ECMAScript 2019 that sort is stable, so its result
  is the unique sequence that (1) is ordered by key and (2) keeps the elements
  of every key class in their original relative order. `SortByKey` computes
  that sequence by insertion; `SortIsUnique` shows that any stable sort agrees
  with it.
 */
module StableSort {

  /** Keys never decrease from left to right. */
  ghost predicate SortedBy<T>(s: seq<T>, key: T -> int) {
    forall i, j :: 0 <= i < j < |s| ==> key(s[i]) <= key(s[j])
  }

  /** The elements of `s` whose key is `k`, in their order in `s`. */
  function Class<T>(s: seq<T>, key: T -> int, k: int): seq<T>
  {
    if |s| == 0 then []
    else Class(s[..|s|-1], key, k) + (if key(s[|s|-1]) == k then [s[|s|-1]] else [])
  }

  /** Inserts `x` after every element whose key is at most `key(x)`. */
  function Insert<T>(s: seq<T>, x: T, key: T -> int): (r: seq<T>)
    ensures multiset(r) == multiset(s) + multiset{x}
    ensures |r| == |s| + 1
  {
    if |s| == 0 || key(s[|s|-1]) <= key(x) then s + [x]
    else
      assert s == s[..|s|-1] + [s[|s|-1]];
      Insert(s[..|s|-1], x, key) + [s[|s|-1]]
  }

  /** Insertion sort: each element is inserted, in input order, into the sorted prefix. */
  function SortByKey<T>(s: seq<T>, key: T -> int): (r: seq<T>)
    ensures multiset(r) == multiset(s)
    ensures |r| == |s|
  {
    if |s| == 0 then []
    else
      assert s == s[..|s|-1] + [s[|s|-1]];
      Insert(SortByKey(s[..|s|-1], key), s[|s|-1], key)
  }

  lemma ClassAppend<T>(a: seq<T>, b: seq<T>, key: T -> int, k: int)
    ensures Class(a + b, key, k) == Class(a, key, k) + Class(b, key, k)
    decreases |b|
  {
    if |b| == 0 {
      assert a + b == a;
    } else {
      assert (a + b)[..|a + b|-1] == a + b[..|b|-1];
      ClassAppend(a, b[..|b|-1], key, k);
    }
  }

  lemma ClassMembers<T>(s: seq<T>, key: T -> int, k: int)
    ensures forall x :: x in Class(s, key, k) <==> x in s && key(x) == k
  {
    if |s| > 0 {
      ClassMembers(s[..|s|-1], key, k);
      assert s == s[..|s|-1] + [s[|s|-1]];
    }
  }

  /** Every key of `r` is at most the larger of `key(x)` and any bound on the keys of `s`. */
  lemma {:induction false} InsertBounded<T>(s: seq<T>, x: T, key: T -> int, b: int)
    requires forall i :: 0 <= i < |s| ==> key(s[i]) <= b
    requires key(x) <= b
    ensures forall i :: 0 <= i < |Insert(s, x, key)| ==> key(Insert(s, x, key)[i]) <= b
  {
    if |s| == 0 || key(s[|s|-1]) <= key(x) {
    } else {
      InsertBounded(s[..|s|-1], x, key, b);
    }
  }

  lemma {:induction false} InsertSorted<T>(s: seq<T>, x: T, key: T -> int)
    requires SortedBy(s, key)
    ensures SortedBy(Insert(s, x, key), key)
  {
    if |s| == 0 || key(s[|s|-1]) <= key(x) {
    } else {
      var init, last := s[..|s|-1], s[|s|-1];
      InsertSorted(init, x, key);
      InsertBounded(init, x, key, key(last));
    }
  }

  /** Inserting `x` appends it to its own key class and leaves every other class alone. */
  lemma {:induction false} InsertClass<T>(s: seq<T>, x: T, key: T -> int, k: int)
    ensures Class(Insert(s, x, key), key, k) == Class(s, key, k) + (if key(x) == k then [x] else [])
  {
    if |s| == 0 || key(s[|s|-1]) <= key(x) {
      ClassAppend(s, [x], key, k);
      assert Class([x], key, k) == (if key(x) == k then [x] else []) by {
        assert [x][..0] == [];
      }
    } else {
      var init, last := s[..|s|-1], s[|s|-1];
      var r' := Insert(init, x, key);
      InsertClass(init, x, key, k);
      assert (r' + [last])[..|r' + [last]|-1] == r';
    }
  }

  lemma {:induction false} SortSorted<T>(s: seq<T>, key: T -> int)
    ensures SortedBy(SortByKey(s, key), key)
  {
    if |s| > 0 {
      SortSorted(s[..|s|-1], key);
      InsertSorted(SortByKey(s[..|s|-1], key), s[|s|-1], key);
    }
  }

  /** The sort keeps every key class in input order: it is stable. */
  lemma {:induction false} SortStable<T>(s: seq<T>, key: T -> int, k: int)
    ensures Class(SortByKey(s, key), key, k) == Class(s, key, k)
  {
    if |s| > 0 {
      SortStable(s[..|s|-1], key, k);
      InsertClass(SortByKey(s[..|s|-1], key), s[|s|-1], key, k);
    }
  }

  /** The sort is a stable sort: sorted, a permutation, and every key class in input order. */
  lemma {:induction false} SortIsStableSort<T>(s: seq<T>, key: T -> int)
    ensures SortedBy(SortByKey(s, key), key)
    ensures multiset(SortByKey(s, key)) == multiset(s)
    ensures forall k :: Class(SortByKey(s, key), key, k) == Class(s, key, k)
  {
    SortSorted(s, key);
    forall k ensures Class(SortByKey(s, key), key, k) == Class(s, key, k) {
      SortStable(s, key, k);
    }
  }

  /** Sorting an already sorted sequence changes nothing. */
  lemma {:induction false} SortOfSorted<T>(s: seq<T>, key: T -> int)
    requires SortedBy(s, key)
    ensures SortByKey(s, key) == s
  {
    if |s| > 0 {
      var init, last := s[..|s|-1], s[|s|-1];
      assert s == init + [last];
      assert SortByKey(s, key) == Insert(SortByKey(init, key), last, key);
      SortedInit(s, key);
      SortOfSorted(init, key);
      InsertAtEnd(init, last, key);
    }
  }

  lemma {:induction false} SortedInit<T>(s: seq<T>, key: T -> int)
    requires |s| > 0 && SortedBy(s, key)
    ensures SortedBy(s[..|s|-1], key)
    ensures |s| > 1 ==> key(s[|s|-2]) <= key(s[|s|-1])
  {
    var init := s[..|s|-1];
    forall i, j | 0 <= i < j < |init| ensures key(init[i]) <= key(init[j]) {
      assert init[i] == s[i] && init[j] == s[j];
    }
  }

  lemma {:induction false} InsertAtEnd<T>(s: seq<T>, x: T, key: T -> int)
    requires |s| == 0 || key(s[|s|-1]) <= key(x)
    ensures Insert(s, x, key) == s + [x]
  {
  }


  /** Re-sorting after each append gives the same list as sorting once at the end. */
  lemma SortAfterAppend<T>(a: seq<T>, x: T, key: T -> int)
    ensures SortByKey(SortByKey(a, key) + [x], key) == SortByKey(a + [x], key)
  {
    var sa := SortByKey(a, key);
    SortSorted(a, key);
    SortOfSorted(sa, key);
    assert (sa + [x])[..|sa|] == sa;
    assert (a + [x])[..|a|] == a;
  }

  /** An element of a non-empty sequence has a non-empty key class. */
  lemma ClassOfMember<T>(s: seq<T>, key: T -> int, i: nat)
    requires i < |s|
    ensures s[i] in Class(s, key, key(s[i]))
  {
    ClassMembers(s, key, key(s[i]));
  }

  /** The last element of a key-sorted sequence carries the largest key of any class. */
  lemma {:induction false} TopKey<T>(t: seq<T>, u: seq<T>, key: T -> int)
    requires |t| > 0 && |u| > 0 && SortedBy(u, key)
    requires Class(t, key, key(t[|t|-1])) == Class(u, key, key(t[|t|-1]))
    ensures key(t[|t|-1]) <= key(u[|u|-1])
  {
    var k := key(t[|t|-1]);
    ClassOfMember(t, key, |t|-1);
    ClassMembers(u, key, k);
    var j :| 0 <= j < |u| && u[j] == t[|t|-1];
  }

  /** Dropping the last element of `t` shortens its own class and no other. */
  lemma {:induction false} ClassOfInit<T>(t: seq<T>, key: T -> int, k: int)
    requires |t| > 0
    ensures Class(t, key, k) == Class(t[..|t|-1], key, k) + (if key(t[|t|-1]) == k then [t[|t|-1]] else [])
  {
  }

  lemma SnocInjective<T>(a: seq<T>, x: T, b: seq<T>, y: T)
    requires a + [x] == b + [y]
    ensures a == b && x == y
  {
    assert |a| == |b|;
    assert a == (a + [x])[..|a|];
    assert b == (b + [y])[..|b|];
    assert x == (a + [x])[|a|];
  }

  /** When both last elements share a key and the classes agree, so do the last elements and the class of every prefix. */
  lemma {:induction false} InitClassAgrees<T>(t: seq<T>, u: seq<T>, key: T -> int, k: int)
    requires |t| > 0 && |u| > 0 && key(t[|t|-1]) == key(u[|u|-1])
    requires Class(t, key, k) == Class(u, key, k)
    ensures Class(t[..|t|-1], key, k) == Class(u[..|u|-1], key, k)
    ensures k == key(t[|t|-1]) ==> t[|t|-1] == u[|u|-1]
  {
    var lt, lu := t[|t|-1], u[|u|-1];
    var ct, cu := Class(t[..|t|-1], key, k), Class(u[..|u|-1], key, k);
    ClassOfInit(t, key, k);
    ClassOfInit(u, key, k);
    if k == key(lt) {
      assert Class(t, key, k) == ct + [lt];
      assert Class(u, key, k) == cu + [lu];
      SnocInjective(ct, lt, cu, lu);
    } else {
      assert ct + [] == ct && cu + [] == cu;
      assert Class(t, key, k) == ct;
      assert Class(u, key, k) == cu;
    }
  }

  /** Two key-sorted sequences with the same key classes are equal. */
  lemma {:induction false} SortedClassesDetermine<T>(t: seq<T>, u: seq<T>, key: T -> int)
    requires SortedBy(t, key) && SortedBy(u, key)
    requires forall k :: Class(t, key, k) == Class(u, key, k)
    ensures t == u
    decreases |t| + |u|
  {
    if |t| == 0 && |u| == 0 {
    } else if |t| == 0 {
      ClassOfMember(u, key, 0);
      assert false;
    } else if |u| == 0 {
      ClassOfMember(t, key, 0);
      assert false;
    } else {
      var t', u' := t[..|t|-1], u[..|u|-1];
      TopKey(t, u, key);
      TopKey(u, t, key);
      forall k ensures Class(t', key, k) == Class(u', key, k) {
        InitClassAgrees(t, u, key, k);
      }
      InitClassAgrees(t, u, key, key(t[|t|-1]));
      SortedClassesDetermine(t', u', key);
      assert t == t' + [t[|t|-1]];
      assert u == u' + [u[|u|-1]];
    }
  }

  /**
    Any key-sorted rearrangement that keeps every key class in input order is
    `SortByKey(s, key)`: whichever stable sort the runtime uses, it computes this.
   */
  lemma SortIsUnique<T>(s: seq<T>, t: seq<T>, key: T -> int)
    requires SortedBy(t, key)
    requires forall k :: Class(t, key, k) == Class(s, key, k)
    ensures t == SortByKey(s, key)
  {
    SortSorted(s, key);
    forall k ensures Class(t, key, k) == Class(SortByKey(s, key), key, k) {
      SortStable(s, key, k);
    }
    SortedClassesDetermine(t, SortByKey(s, key), key);
  }

  /** A single element is already sorted. */
  lemma {:induction false} SortSingleton<T>(x: T, key: T -> int)
    ensures SortByKey([x], key) == [x]
  {
    assert [x][..0] == [];
  }

  /** Two elements swap exactly when the second has the smaller key. */
  lemma {:induction false} SortPair<T>(x: T, y: T, key: T -> int)
    ensures SortByKey([x] + [y], key) == if key(x) <= key(y) then [x, y] else [y, x]
  {
    SortSingleton(x, key);
    assert ([x] + [y])[..1] == [x];
    assert [x][..0] == [];
    assert SortByKey([x] + [y], key) == Insert([x], y, key);
  }

  /** Two rearrangements of each other hold the same elements. */
  lemma SameMembers<T>(a: seq<T>, b: seq<T>)
    requires multiset(a) == multiset(b)
    ensures forall x :: x in a <==> x in b
  {
    forall x ensures x in a <==> x in b {
      assert x in a <==> x in multiset(a);
      assert x in b <==> x in multiset(b);
    }
  }
}

=== FILE: wrappers.dfy ===
/** An optional value: `None` stands for JavaScript's `undefined`. */
module Wrappers {
  datatype Option<+T> = None | Some(value: T)
}
